=== FILE: README.md ===
# Stereo depth pipeline — a Dafny model

This project models the core of a small C library that estimates scene depth
from a horizontally offset pair of cameras. It also models the RGB888-to-RGB565
packer of the library's C example program. The library keeps one session
record per rig. Colour frames arrive in chunks per camera side (`feed`). When
both frames of a pair are complete, the session:

1. converts both frames from RGB565 to 16-bit intensity in place;
2. searches, for every cell of a `block × block` grid, leftwards along the row
   for the best-matching window of the right frame (default score: sum of
   absolute differences, SAD);
3. stores the offsets (disparities) in a float buffer;
4. converts them to depths (`focal · baseline / disparity`, or a maximum-depth
   sentinel).

Observer callbacks are notified after each stage.

The model is functional. A session is an immutable `Session` value. Each
operation returns the next session plus a trace of the `Event`s the C code
makes observable: callback invocations, with a snapshot of the buffer passed,
and buffer releases. Ownership of the buffers, which C tracks with two flags,
becomes a `Storage` tag. Frames are byte sequences holding little-endian 16-bit
samples. Every `uint32_t` size and counter is reduced mod 2^32 with `Wrap32`
where the C assignment would wrap.

Modules:

- `Types` (types.dfy): fixed-width ranges, `Wrap32`, camera sides, per-side pairs, `Option`.
- `Arith` (arith.dfy): small nonlinear-arithmetic facts (monotone products, division, row-major cell indices, products as repeated addition).
- `Rgb565` (rgb565.dfy): channel extraction, sample byte layout, luminance and the in-place intensity conversion.
- `Packer` (packer.dfy): the in-place RGB888 → RGB565 packer of the example program.
- `Matching` (matching.dfy): the SAD strategy and the best-candidate rule of the search.
- `Lifecycle` (lifecycle.dfy): the session record with setup, buffer binding, observers, status and teardown.
- `Pipeline` (pipeline.dfy): disparity search, disparity map, depth conversion, processing and frame assembly.

## Model

| member | source | states |
|---|---|---|
| Types.Wrap32 | ssvl.h:205-207 | a value below 2^32 survives assignment to a `uint32_t` field unchanged |
| Types.Wrap32Range | ssvl.h:205-207 | the stored value is the assigned one reduced mod 2^32, so it is never larger |
| Rgb565.ChannelRanges | ssvl.h:312-331 | red, green and blue extracted with the library's masks and shifts are at most 31, 63 and 31 (the full-scale values) |
| Rgb565.ChannelsRebuildSample | ssvl.h:312-331 | the three channels partition the sample: shifting them back into place and or-ing them gives back the original 16 bits |
| Rgb565.JoinSplit | examples/c/main.c:10 | storing a 16-bit sample as low byte then high byte and reading it back is the identity, in both directions |
| Rgb565.Luminance | ssvl.h:333-340 | the weighted luminance of any sample lies in [0, 0.99902], the sum of the three weights |
| Rgb565.Quantize | ssvl.h:345 | scaling to 65535 and truncating gives the integer part of the scaled value, never above 65470 |
| Rgb565.GrayExtremes | ssvl.h:327-346 | black converts to intensity 0 and white to 65470, the top of the reachable intensity range |
| Rgb565.ConvertToGrayscale | ssvl.h:310-347 | each of the first `pixelCount` samples is replaced by the intensity of the colour sample it held; every later byte and the length are unchanged |
| Packer.DecodePacked | examples/c/main.c:21-28 | decoding a packed pixel with the library's masks and shifts returns exactly `R>>3`, `G>>2` and `B>>3` |
| Packer.TruncatedChannelsFit | examples/c/main.c:21-23 | the truncated channels are at most 31, 63 and 31, so the three or-ed fields never overlap |
| Packer.RepackDecoded | examples/c/main.c:21-28 | widening the decoded channels back to eight bits and packing them again reproduces the packed sample |
| Packer.PackedBytes | examples/c/main.c:14-29 | the out-of-place reference packing has two bytes per pixel, and sample `i` is the 5-6-5 packing of pixel `i` |
| Packer.PackStepReadsInput | examples/c/main.c:15-19 | when the stride is at least 2, the in-place loop reads pixel `i` from bytes no earlier iteration has overwritten |
| Packer.PackStepExtends | examples/c/main.c:25-29 | writing pixel `i`'s sample at bytes `2i`, `2i+1` extends the packed prefix by one pixel and leaves later bytes untouched |
| Packer.PrefixIsPacking | examples/c/main.c:14-30 | a fully packed prefix equals the out-of-place packing, and the bytes past it keep their input values |
| Packer.PackPixels | examples/c/main.c:14-30 | the in-place loop over `pixelCount` pixels leaves bytes `2k`, `2k+1` holding pixel `k`'s sample for every packed pixel, and every later byte as it was in the input |
| Packer.ConvertRgb888ToRgb565 | examples/c/main.c:9-34 | the packer returns `2·width·height`; its in-place result equals the out-of-place packing over that prefix, output pixel `i` is `((R>>3)<<11) \| ((G>>2)<<5) \| (B>>3)` of the input bytes at `i·channels`, `+1` and `+2`, and the rest of the image is unchanged |
| Matching.SadFitsInU32 | ssvl.h:137-144 | the largest possible SAD of a window of edge at most 255 is below 2^32 |
| Matching.Sad | ssvl.h:131-149 | the SAD score never exceeds `dims²·65535`, so the `uint32_t` accumulator cannot wrap |
| Matching.RowSadZeroIff | ssvl.h:140-145 | the SAD of one window row is zero exactly when the two rows agree sample by sample |
| Matching.WindowSadZeroIff | ssvl.h:139-146 | the SAD of the first rows of a window is zero exactly when all those rows agree |
| Matching.SadZeroIffWindowsMatch | ssvl.h:131-149 | SAD is zero if and only if the two windows hold the same samples |
| Matching.RowSadSymmetric | ssvl.h:140-145 | swapping the two rows leaves the row SAD unchanged |
| Matching.WindowSadSymmetric | ssvl.h:139-146 | swapping the two windows leaves the partial window SAD unchanged |
| Matching.SadSymmetric | ssvl.h:131-149 | SAD does not depend on which window is the reference |
| Matching.BestCandidate | ssvl.h:359-375 | the kept candidate is in `[0, hi]`, scores no more than any candidate, and scores strictly less than every candidate above it |
| Matching.ScanStep | ssvl.h:361-375 | one iteration of the descending scan with a strict `<` keeps "best among the candidates scanned so far, largest on ties" |
| Matching.ScanFinds | ssvl.h:361-375 | a completed scan has found the best candidate |
| Matching.BestCandidateUnique | ssvl.h:371-374 | minimal score plus the strict tie rule pins the candidate down uniquely |
| Lifecycle.InitRejectsExactly | ssvl.h:165-167 | the setup guard as written rejects exactly odd widths and heights that are not a multiple of the block |
| Lifecycle.InitAcceptsUndividedWidth | ssvl.h:165-167 | a width the block does not divide passes the guard when even (6 pixels, block 4) |
| Lifecycle.CellsWithinPixels | ssvl.h:195-205 | in a set-up session the grid is no wider or taller than the frame, and has no more cells than it has pixels |
| Lifecycle.GeometryProducts | ssvl.h:195-206 | in a set-up session the pixel count is `width·height`, the cell count is `depthWidth·depthHeight`, and the grid's blocks fit inside the frame |
| Lifecycle.SetGeometry | ssvl.h:195-207 | the grid dimensions are the whole-block quotients, and the counts and byte sizes satisfy the geometry; only these fields change |
| Lifecycle.Configure | ssvl.h:169-207 | an accepted setup establishes the geometry (a grid of whole blocks, pixel and cell counts as products, byte sizes wrapped to 32 bits) and keeps buffers, counters, ownership and status |
| Lifecycle.Allocate | ssvl.h:214-227 | allocation gives two frame buffers of the frame size, a depth buffer of `size/4` cells, zero counters and session ownership; nothing else changes |
| Lifecycle.Init | ssvl.h:162-241 | a rejected setup changes nothing; an accepted one sets the geometry (grid width `width/block`, grid height exactly `height/block`), the optics, the SAD default and no observers; only `allocate` resets counters and takes ownership |
| Lifecycle.InitSizes | ssvl.h:195-207 | unless they wrap, the frame size is `width·height·2` and the depth size is `depthWidth·depthHeight·4`; an allocating setup is then ready to process |
| Lifecycle.InitSizesCanWrap | ssvl.h:205-206 | for a 65534 × 65534 frame the stored frame size wraps to 4294443016 bytes, less than the frame needs, so the session cannot process |
| Lifecycle.SetBuffers | ssvl.h:247-261 | binding is refused, changing nothing, exactly when either length is below the pixel count; otherwise the caller's buffers are bound as caller-owned and nothing else changes |
| Lifecycle.SetBuffersMakesValid | ssvl.h:249-260 | buffers that pass the length check make a set-up session ready to process |
| Lifecycle.SetOnGrayscale | ssvl.h:264-269 | registers the intensity observer and changes nothing else |
| Lifecycle.SetOnDisparity | ssvl.h:272-277 | registers the disparity observer and changes nothing else |
| Lifecycle.SetOnDepth | ssvl.h:280-285 | registers the depth observer and changes nothing else |
| Lifecycle.SetStatusCode | ssvl.h:116-123 | any 8-bit status code recorded is what `GetStatusCode` reads back, and nothing else changes |
| Lifecycle.Destroy | ssvl.h:290-301 | buffers are released exactly when the session owns them (all three: left, right, depth); afterwards the session owns nothing and nothing else changes |
| Lifecycle.DestroyTwiceReleasesOnce | ssvl.h:290-301 | a second teardown releases nothing and changes nothing |
| Pipeline.CellOrigin | ssvl.h:354-355 | the search window of every grid cell lies inside the frame |
| Pipeline.CellDisparityBound | ssvl.h:354-379 | a cell's disparity is at most `cx·block`, which is below the frame width |
| Pipeline.ScanCandidates | ssvl.h:357-375 | the loop as written returns the best candidate: minimal score, largest on ties |
| Pipeline.DisparitySearch | ssvl.h:350-382 | the search returns the distance from the cell's position to the best candidate of its row |
| Pipeline.WindowInBounds | ssvl.h:354-369 | every sample the search reads, from the reference window and from any candidate window, lies inside both frames |
| Pipeline.ConstantComparerGivesZero | ssvl.h:359-379 | a strategy that scores all windows alike gives disparity 0 in every cell |
| Pipeline.IdenticalFramesGiveZero | ssvl.h:350-382 | with SAD and identical frames, every cell's disparity is 0 |
| Pipeline.DepthOf | ssvl.h:389-396 | a usable disparity `d` (at least 1, below the width) gives a depth `z` with `z·d = focal·baseline`; any other value gives the sentinel |
| Pipeline.DepthWithinSentinel | ssvl.h:391-396 | with the sentinel `focal·baseline` from setup, the depth of every usable disparity lies in `(0, sentinel]` |
| Pipeline.DepthDecreasesWithDisparity | ssvl.h:391-396 | of two usable disparities, the larger one gives the strictly smaller depth |
| Pipeline.CalculateDepth | ssvl.h:385-400 | the depth conversion touches exactly the grid cells, converting each one, and keeps the length |
| Pipeline.GridRow | ssvl.h:423-427 | the inner search loop fills one grid row with the disparities of its cells |
| Pipeline.GridRows | ssvl.h:422-428 | the outer search loop has filled `n·depthWidth` entries after `n` rows |
| Pipeline.GridRowsCell | ssvl.h:422-428 | cell `(cx, cy)` is stored at row-major index `cy·depthWidth + cx` |
| Pipeline.DisparityMap | ssvl.h:422-428 | the search loops keep the depth buffer's length and leave entries past the grid alone |
| Pipeline.DisparityMapCells | ssvl.h:422-428 | every grid cell's disparity lands at its row-major index, which lies inside the grid |
| Pipeline.Intensity | ssvl.h:410-417 | processing resets both counters and converts the first `pixelCount` samples of both frames to intensity; frame lengths and the bytes past those samples are kept, and nothing else changes |
| Pipeline.Process | ssvl.h:404-437 | processing leaves the session ready to process again, with zero counters and intensity frames; buffer lengths, frame bytes past `2·pixelCount` and depth entries past `cellCount` are kept, and only frames, depth buffer and counters change |
| Pipeline.ProcessCell | ssvl.h:422-432 | after processing, each grid cell holds the depth of the disparity found on the intensity frames |
| Pipeline.IdenticalFramesGiveSentinel | ssvl.h:404-437 | with SAD and identical colour frames, every grid cell ends at the maximum-depth sentinel |
| Pipeline.NotificationOrder | ssvl.h:419-434 | notifications come intensity-left, intensity-right, disparity, depth, each exactly when its observer is registered |
| Pipeline.ProcessTrace | ssvl.h:419-434 | one processing run notifies in that fixed order, four notifications when every observer is registered |
| Pipeline.ProcessPayloads | ssvl.h:419-434 | each notification carries its observer's context: the intensity frame of its side, the disparity map, or the final depth buffer with the sentinel; no buffer is released |
| Pipeline.CopyFitsWithoutWrap | ssvl.h:450-460 | when neither the sizes nor the 32-bit counter wrap, the counter test alone keeps the copy inside the buffer |
| Pipeline.Assemble | ssvl.h:448-460 | a chunk is accepted exactly when the wrapped counter stays within the frame size; a refusal resets that side's counter, records the overflow and copies nothing; an acceptance copies the chunk to offset 0; the other side never changes |
| Pipeline.Feed | ssvl.h:448-474 | feeding succeeds exactly when the counter stays within the frame size, and processes exactly when both counters then equal it; processing leaves zero counters and changes only frames, depth buffer and counters, and a feed that does not process notifies nobody and changes only frames, counters and status |
| Pipeline.FeedProcessesAssembledPair | ssvl.h:459-471 | a completing feed processes the assembled pair (the chunk at the start of its side's buffer, the rest of that buffer and the other side's frame as they were): it ends as processing that pair ends, and each frame then holds that pair's intensity |
| Pipeline.FeedOverflowResets | ssvl.h:450-457 | an overflowing chunk fails, copies nothing, resets only its side's counter, records the overflow and notifies nobody |
| Pipeline.FeedCopiesAtStart | ssvl.h:459-473 | an accepted chunk that does not complete the pair lands at offset 0 of its side; bytes after it, the other side and the status are unchanged |
| Pipeline.FeedTrace | ssvl.h:463-471 | a chunk that fills its side while the other side is already full processes the pair, and the feed notifies as one processing run does, in order |
| Pipeline.PartialFeedWaits | ssvl.h:448-474 | a chunk that leaves the counter below the frame size leaves the status alone, succeeds, does not process, and leaves the other counter alone |
| Pipeline.FramePairProcessesOnce | ssvl.h:463-471 | one full frame per side, in either order, processes exactly once (on the second feed) and resets both counters |
| Pipeline.ChunksOverwriteFromStart | ssvl.h:459-460 | two accepted chunks on one side are not appended: the second overwrites the first one's leading bytes |
| Pipeline.FeedKeepsFillsBounded | ssvl.h:450-457 | counters within the frame size stay within it across a feed |
| Pipeline.PackedSizeIsFrameSize | examples/c/main.c:12-33 | the packer's byte count for the session's frame dimensions is the frame size at which `Feed` completes a frame |

## Where the code and its comments differ

In each case below the library's own comments promise one thing and the code
does another. The model follows the code. The member that exhibits the
difference is named.

- Setup guard. The comment above the guard (ssvl.h:163-164) says setup is
  refused when the block does not divide the width or the height.
  The code writes `cameras_width & search_window_dimensions != 0`, which parses
  as `width & (block != 0)` and so tests only the lowest bit of the width. An
  even width the block does not divide is accepted, and the pixel columns past
  the last whole block are never searched (`InitRejectsExactly`,
  `InitAcceptsUndividedWidth`).
- Chunk placement. The fill counter is documented as tracking how much of
  the frame is stored (ssvl.h:91), and the comment on `feed` describes
  chunks that add up to a complete frame (ssvl.h:439-443). The code copies
  every chunk to offset 0 of the side's buffer, so earlier chunks are
  overwritten (`ChunksOverwriteFromStart`, `FeedCopiesAtStart`).
- Buffer binding. The comment on `ssvl_set_buffers` (ssvl.h:244-246) promises
  `true` when the buffers are set, but the function has no `return` on that
  path, so its result there is indeterminate; it is modelled as `None`. The
  depth-buffer length is checked against the pixel count, as that comment
  says, although the pipeline needs only one entry per cell (`SetBuffers`).
- Setup without `allocate`. The comment on `ssvl_init` (ssvl.h:160-161)
  offers this path for buffers bound later with `ssvl_set_buffers`. Neither
  function resets the fill counters, so a counter left over from a previous
  geometry can exceed the new frame size (`Init`).
- Size arithmetic. The comment on `ssvl_init` (ssvl.h:156-158) gives each
  frame buffer `2·width·height` bytes. The `uint32_t` frame size wraps for very large frames
  (`InitSizesCanWrap`). Such a frame has at least 2^31 pixels, so a signed
  `int` product overflows before the size is stored, which is undefined
  behaviour in C: `width*height` at ssvl.h:205, and with a block of 1 already
  `depth_width*depth_height` at ssvl.h:197. The model takes the usual
  two's-complement result.
- Score direction. The comment on the comparer field (ssvl.h:69-70) says higher scores mean
  more similar windows. The search keeps the smallest score, and SAD is zero
  for identical windows (`ScanCandidates`, `SadZeroIffWindowsMatch`).

## Left out

- Floating point: luminance, focal length, disparities and depths are exact reals. Float rounding and the `(float)` conversions are not modelled.
- Rgb565.Luminance: computed with exact real weights; the float sum can differ from it in the last bits, so the model's intensity of a sample may differ from the library's by one unit.
- Pipeline.DepthOf: exact real division instead of float division.
- The focal length `(width/2) / tanf(fov/2)` is an input of `Init` (`focalLengthPixels`), because `tanf` is foreign floating-point code.
- Rgb565.Gray: the intensity of a sample is the exact-real luminance scaled to 65535 and truncated (`Quantize(Luminance(p))`); the float rounding of the C computation is left out, as the floating-point line above says, so the model's intensity may differ from the library's by one unit.
- Byte order: frames are modelled as byte sequences holding little-endian 16-bit samples (`Sample`, `PackedBytes`, `FeedCopiesAtStart`). The C code reads and writes native `uint16_t` values (ssvl.h:329, examples/c/main.c:29), so on a big-endian target the byte-level statements describe the bytes in the other order.
- Lifecycle.SetBuffers: the two frame buffers and the depth buffer are distinct, non-overlapping sequences. C accepts the same pointer for both sides, or a depth buffer overlapping a frame; processing would then convert a shared buffer twice (ssvl.h:416-417) and the depth writes would clobber frame samples. A `PerSide` of independent sequences cannot express such aliasing.
- Memory allocation: `malloc` contents are indeterminate and are modelled as zeros. Allocation failure (a NULL result) is not modelled. `free` is a `Released` event.
- Lifecycle.Init: requires a block of at least 1, because the guard's `height % 0` is undefined behaviour in C.
- Lifecycle.Init: `cameras_width*cameras_height` (ssvl.h:205) and, with a block of 1, `depth_width*depth_height` (ssvl.h:197) are computed in signed `int` and overflow (undefined behaviour) at 2^31 or more. The model uses the exact products, which always fit the `uint32_t` fields. Processing indexes its buffers with `int` arithmetic too (ssvl.h:141-142 in SAD, ssvl.h:390-395 and 426 for the disparity and depth stores), which overflows in the same regime of frames of 2^31 pixels or more; the model computes those indices exactly.
- Pipeline.Feed: requires a session set up with buffers (`Valid`), because the C code dereferences the buffer pointers without checking them.
- Pipeline.Feed: requires the copy to fit the side's buffer (`CopyFits`). Once the 32-bit counter wraps, the C `memcpy` writes past the buffer, which the model does not represent. `CopyFitsWithoutWrap` shows this excludes only the wrapping case.
- Packer.ConvertRgb888ToRgb565: requires a stride (`channels`) of at least 2 and an image below 4 GiB. With a smaller stride the in-place loop reads bytes it has already overwritten; a larger image wraps the 32-bit index arithmetic.
- Observer callbacks receive a snapshot of the buffer. A C callback can also write through the pointer it is given, or re-enter the library; neither is modelled.
- Matching.Comparer: the comparison strategy is a pure, total function of the frame width, the two frames, the window coordinates and the block size. The C strategy receives the whole session and the two live frame buffers through non-const pointers (ssvl.h:74-76, 362-369); it can read other session fields, write through those pointers while the search loops run, or re-enter the library. None of this is modelled; the width is the only session field SAD reads.
- `ssvl_get_max_depth_mm` (a field read) and the `SSVL_DEBUG` printing are not modelled.
- cam_nav.h (a superseded draft of the library) is not part of this model. Neither are the game-engine and web demo front ends, nor `main()` of the C example, which does file loading and printing.
- Concurrency: the library is single-threaded and synchronous; the model is sequential by construction.

=== FILE: arith.dfy ===
/** Non-linear arithmetic facts the geometry of the pipeline rests on:
    monotonicity of products and the Euclidean division identities used to
    move between a grid cell `(x, y)` and its row-major index `y * w + x`. */
module Arith {

  lemma MulMonoLeft(a: nat, b: nat, c: nat)
    requires a <= b
    ensures a * c <= b * c
  {
  }

  lemma MulMonoBoth(a: nat, b: nat, c: nat, d: nat)
    requires a <= b && c <= d
    ensures a * c <= b * d
  {
    MulMonoLeft(a, b, c);
    MulMonoLeft(c, d, b);
  }

  /** Truncating division leaves a remainder below the divisor. */
  lemma DivBounds(a: nat, b: nat)
    requires b > 0
    ensures (a / b) * b <= a < (a / b + 1) * b
    ensures a / b <= a
  {
    var q, m := a / b, a % b;
    assert a == q * b + m && 0 <= m < b;
    assert (q + 1) * b == q * b + b;
    MulMonoLeft(1, b, q);
  }

  lemma DivExact(a: nat, b: nat)
    requires b > 0 && a % b == 0
    ensures (a / b) * b == a
  {
    assert a == (a / b) * b + a % b;
  }

  /** Quotient and remainder are determined by `a == q * b + m, m < b`. */
  lemma DivModUnique(a: nat, b: nat, q: nat, m: nat)
    requires b > 0 && m < b && a == q * b + m
    ensures a / b == q && a % b == m
  {
    var q', m' := a / b, a % b;
    assert a == q' * b + m' && m' < b;
    MulGap(q', q, b);
    MulGap(q, q', b);
  }

  /** Distinct multiples of `b` lie at least `b` apart. */
  lemma MulGap(x: nat, y: nat, b: nat)
    ensures x < y ==> x * b + b <= y * b
  {
    if x < y {
      assert (x + 1) * b == x * b + b;
      MulMonoLeft(x + 1, y, b);
    }
  }

  /** Row-major index of cell `(x, y)` in a grid `w` cells wide, and back. */
  lemma CellIndex(x: nat, y: nat, w: nat, h: nat)
    requires x < w && y < h
    ensures y * w + x < w * h
    ensures (y * w + x) / w == y && (y * w + x) % w == x
  {
    DivModUnique(y * w + x, w, y, x);
    MulMonoLeft(y + 1, h, w);
    assert (y + 1) * w == y * w + w;
  }

  /** Block `c` of `n` blocks of edge `b` laid side by side within `w`
      pixels ends within them. */
  lemma BlockFits(c: nat, n: nat, b: nat, w: nat)
    requires c < n && n * b <= w
    ensures c * b + b <= w
  {
    MulMonoLeft(c + 1, n, b);
  }

  /** `a * b` as repeated addition. The session's geometry is stated with it:
      the solver unfolds it only a step at a time, so a session's counts do
      not drag non-linear arithmetic into every proof about the session;
      `ProductIsMul` brings back the ordinary product where it is needed. */
  function Product(a: nat, b: nat): nat
    decreases b
  {
    if b == 0 then 0 else Product(a, b - 1) + a
  }

  lemma {:induction false} ProductIsMul(a: nat, b: nat)
    ensures Product(a, b) == a * b
    decreases b
  {
    if b > 0 {
      ProductIsMul(a, b - 1);
      assert a * b == a * (b - 1) + a;
    }
  }

  /** `n / b` whole blocks of edge `b` fit in `n`, and there are no more of
      them than `n`. */
  lemma BlocksFit(n: nat, b: nat)
    requires b > 0
    ensures n / b <= n
    ensures Product(n / b, b) <= n
  {
    var q := n / b;
    DivBounds(n, b);
    assert q * b <= n;
    ProductIsMul(q, b);
  }

  /** The product of two 16-bit values fits 32 bits. */
  lemma ProductFits(a: nat, b: nat)
    requires a < 0x1_0000 && b < 0x1_0000
    ensures Product(a, b) < 0x1_0000_0000
  {
    ProductIsMul(a, b);
    MulMonoBoth(a, 65535, b, 65535);
  }
}

=== FILE: lifecycle.dfy ===
/** The session record of the stereo library and the operations that set it
    up, bind its buffers, record its status and tear it down.

    The C library keeps one mutable `ssvl_t` per rig; here a session is an
    immutable value and every operation returns the next one. Heap buffers
    become sequences, the two ownership flags become a `Storage` tag, and
    releasing a buffer becomes a `Released` event in the returned trace. */
module Lifecycle {
  import opened Types
  import opened Matching
  import opened Arith

  /** Last status recorded by the library: any 8-bit code, of which the
      library itself uses two. */
  type Status = U8

  const STATUS_OK: Status := 0
  const STATUS_FEED_OVERFLOW: Status := 1

  /** Who owns the three buffers: nobody (never set, or released), the
      session (allocated by `Init`), or the caller (bound by `SetBuffers`). */
  datatype Storage = Unset | Owned | Borrowed

  /** An observer registration: none (a NULL callback), or a callback that
      receives the given opaque context with every notification. */
  datatype Observer = Unregistered | Registered(context: nat)

  datatype Buffer = LeftFrame | RightFrame | DepthBuffer

  /** What the library makes observable: callback invocations, with a
      snapshot of the buffer handed to the callback, and buffer releases. */
  datatype Event =
    | GrayscaleReady(context: nat, side: Side, frame: seq<bv8>, width: U16, height: U16)
    | DisparityReady(context: nat, disparities: seq<real>, depthWidth: U16, depthHeight: U16)
    | DepthReady(context: nat, depths: seq<real>, depthWidth: U16, depthHeight: U16, maxDepthMm: real)
    | Released(buffer: Buffer)

  datatype Session = Session(
    width: U16,
    height: U16,
    depthWidth: U16,
    depthHeight: U16,
    baselineMm: real,
    fovDegrees: real,
    focalLengthPixels: real,
    maxDepthMm: real,
    comparer: Comparer,
    pixelCount: U32,
    cellCount: U32,
    frameBufferSize: U32,        // bytes in one frame buffer
    depthBufferSize: U32,        // bytes in the depth buffer
    frames: PerSide<seq<bv8>>,
    depth: seq<real>,
    fills: PerSide<U32>,         // bytes received so far for the current frame
    block: U8,                   // edge of the square search window
    storage: Storage,
    onGrayscale: Observer,
    onDisparity: Observer,
    onDepth: Observer,
    status: Status)

  // ---------------------------------------------------------------------
  // Setup

  /** The rejection guard of `Init` as the C expression parses: `&` binds
      looser than `!=`, so the width test is `width & (block != 0)`, which
      looks at the lowest bit of the width only. */
  predicate InitRejects(width: U16, height: U16, block: U8)
    requires block > 0
  {
    ((width as bv16) & (if block != 0 then 1 else 0)) != 0 || height % block != 0
  }

  /** What the guard amounts to: odd widths and heights that are not a
      multiple of the block are rejected; a width that is not a multiple of
      the block but is even passes. */
  lemma InitRejectsExactly(width: U16, height: U16, block: U8)
    requires block > 0
    ensures InitRejects(width, height, block) <==> width % 2 == 1 || height % block != 0
  {
  }

  /** The guard lets through a width the block does not divide: 6 pixels
      with 4-pixel blocks give one grid column and leave two pixel columns
      unsearched. */
  lemma InitAcceptsUndividedWidth()
    ensures !InitRejects(6, 4, 4) && 6 % 4 != 0 && 6 / 4 == 1
  {
    InitRejectsExactly(6, 4, 4);
  }

  /** The geometry `Init` derives: the grid holds as many whole blocks as fit,
      counts are products, and byte sizes are those products times the sample
      width, reduced mod 2^32 as the `uint32_t` fields hold them. */
  ghost predicate Geometry(s: Session) {
    && s.block > 0
    && s.pixelCount == Product(s.width, s.height)
    && Product(s.depthWidth, s.block) <= s.width
    && Product(s.depthHeight, s.block) <= s.height
    && s.cellCount == Product(s.depthWidth, s.depthHeight)
    && s.frameBufferSize == Wrap32(2 * s.pixelCount)
    && s.depthBufferSize == Wrap32(4 * s.cellCount)
  }

  /** The counts and grid bounds of a set-up session as ordinary products. */
  lemma GeometryProducts(s: Session)
    requires Geometry(s)
    ensures s.pixelCount == s.width * s.height
    ensures s.depthWidth * s.block <= s.width && s.depthHeight * s.block <= s.height
    ensures s.cellCount == s.depthWidth * s.depthHeight
  {
    ProductIsMul(s.width, s.height);
    ProductIsMul(s.depthWidth, s.block);
    ProductIsMul(s.depthHeight, s.block);
    ProductIsMul(s.depthWidth, s.depthHeight);
  }

  /** A session that processing can run on: geometry set up, buffers present,
      and large enough for every sample and cell the pipeline touches. */
  ghost predicate Valid(s: Session) {
    && Geometry(s)
    && s.storage != Unset
    && 2 * s.pixelCount <= |s.frames.left|
    && 2 * s.pixelCount <= |s.frames.right|
    && s.cellCount <= |s.depth|
  }

  /** The grid of a set-up session has no more cells than the frame has pixels. */
  lemma CellsWithinPixels(s: Session)
    requires Geometry(s)
    ensures s.depthWidth <= s.width && s.depthHeight <= s.height
    ensures s.cellCount <= s.pixelCount
  {
    GeometryProducts(s);
    MulMonoLeft(1, s.block, s.depthWidth);
    MulMonoLeft(1, s.block, s.depthHeight);
    MulMonoBoth(s.depthWidth, s.width, s.depthHeight, s.height);
  }

  /** Number of whole blocks of edge `b` in `n` pixels, as the `uint16_t`
      grid dimension holds it. */
  function WholeBlocks(n: U16, b: U8): (k: U16)
    requires b > 0
    ensures k == n / b && Product(k, b) <= n
  {
    BlocksFit(n, b);
    n / b
  }

  /** A pixel or cell count of a grid of 16-bit dimensions, as the
      `uint32_t` count holds it. */
  function Area(a: U16, b: U16): (p: U32)
    ensures p == Product(a, b)
  {
    ProductFits(a, b);
    Product(a, b)
  }

  /** The geometry fields an accepted setup writes: frame and grid
      dimensions, counts and byte sizes. */
  function SetGeometry(s: Session, width: U16, height: U16, block: U8): (r: Session)
    requires block > 0
    ensures Geometry(r)
    ensures r.width == width && r.height == height && r.block == block
    ensures r.depthWidth == width / block && r.depthHeight == height / block
    ensures r == s.(width := width, height := height, block := block,
                    depthWidth := r.depthWidth, depthHeight := r.depthHeight,
                    pixelCount := r.pixelCount, cellCount := r.cellCount,
                    frameBufferSize := r.frameBufferSize, depthBufferSize := r.depthBufferSize)
  {
    var dw := WholeBlocks(width, block);
    var dh := WholeBlocks(height, block);
    var pixelCount := Area(width, height);
    var cellCount := Area(dw, dh);
    s.(
      width := width, height := height, block := block,
      depthWidth := dw, depthHeight := dh,
      pixelCount := pixelCount, cellCount := cellCount,
      frameBufferSize := Wrap32(2 * pixelCount),
      depthBufferSize := Wrap32(4 * cellCount))
  }

  /** The fields an accepted setup writes, on top of the prior session. */
  function Configure(s: Session, width: U16, height: U16, block: U8, baselineMm: real, fovDegrees: real,
                     focalLengthPixels: real): (r: Session)
    requires block > 0
    ensures Geometry(r)
    ensures r.width == width && r.height == height && r.block == block
    ensures r.depthWidth == width / block && r.depthHeight == height / block
    ensures r.frames == s.frames && r.depth == s.depth && r.fills == s.fills
    ensures r.storage == s.storage && r.status == s.status
  {
    var g := SetGeometry(s, width, height, block);
    g.(
      baselineMm := baselineMm, fovDegrees := fovDegrees,
      focalLengthPixels := focalLengthPixels, maxDepthMm := focalLengthPixels * baselineMm,
      onGrayscale := Unregistered, onDisparity := Unregistered, onDepth := Unregistered,
      comparer := Sad)
  }

  /** Fresh session-owned buffers of the configured byte sizes. Their contents
      are indeterminate in C; the model fills them with zeros. */
  function Allocate(c: Session): (r: Session)
    ensures r.storage == Owned && r.fills == PerSide(0, 0)
    ensures |r.frames.left| == c.frameBufferSize && |r.frames.right| == c.frameBufferSize
    ensures |r.depth| == c.depthBufferSize / 4
    ensures r.(frames := c.frames, depth := c.depth, fills := c.fills, storage := c.storage) == c
  {
    c.(
      frames := PerSide(seq(c.frameBufferSize, _ => 0), seq(c.frameBufferSize, _ => 0)),
      fills := PerSide(0, 0),
      depth := seq(c.depthBufferSize / 4, _ => 0.0),
      storage := Owned)
  }

  /** Session setup. `focalLengthPixels` stands for the `tanf` expression of
      the source, `(width / 2) / tan(fov / 2)`, which the model takes as given.
      A rejected setup returns the session untouched (the C function returns
      nothing, so the caller cannot tell). Without `allocate` the fill counters,
      buffers, ownership and status keep whatever they held before. */
  function Init(s: Session, width: U16, height: U16, block: U8, baselineMm: real, fovDegrees: real,
                focalLengthPixels: real, allocate: bool): (r: Session)
    requires block > 0
    ensures InitRejects(width, height, block) ==> r == s
    ensures !InitRejects(width, height, block) ==>
              && Geometry(r)
              && r.width == width && r.height == height && r.block == block
              && r.depthWidth * block <= width < (r.depthWidth + 1) * block
              && r.depthHeight * block == height
              && r.baselineMm == baselineMm && r.fovDegrees == fovDegrees
              && r.focalLengthPixels == focalLengthPixels
              && r.maxDepthMm == focalLengthPixels * baselineMm
              && r.comparer == Sad
              && r.onGrayscale == Unregistered && r.onDisparity == Unregistered && r.onDepth == Unregistered
              && r.status == s.status
    ensures !InitRejects(width, height, block) && !allocate ==>
              && r.fills == s.fills && r.frames == s.frames && r.depth == s.depth && r.storage == s.storage
    ensures !InitRejects(width, height, block) && allocate ==>
              && r.fills == PerSide(0, 0) && r.storage == Owned
              && |r.frames.left| == r.frameBufferSize && |r.frames.right| == r.frameBufferSize
              && |r.depth| == r.depthBufferSize / 4
  {
    if InitRejects(width, height, block) then s
    else
      InitRejectsExactly(width, height, block);
      DivBounds(width, block);
      DivExact(height, block);
      var c := Configure(s, width, height, block, baselineMm, fovDegrees, focalLengthPixels);
      if allocate then Allocate(c) else c
  }

  /** No byte size of the session wrapped around 2^32. */
  ghost predicate SizesFit(s: Session) {
    2 * s.pixelCount < TWO_POW_32 && 4 * s.cellCount < TWO_POW_32
  }

  /** An accepted setup whose sizes do not wrap has frame buffers of two bytes
      per pixel and a depth buffer of four bytes per cell; with `allocate` the
      session is then ready to process and its counters are within bounds. */
  lemma InitSizes(s: Session, width: U16, height: U16, block: U8, baselineMm: real, fovDegrees: real,
                  focalLengthPixels: real, allocate: bool)
    requires block > 0
    requires !InitRejects(width, height, block)
    requires SizesFit(Init(s, width, height, block, baselineMm, fovDegrees, focalLengthPixels, allocate))
    ensures var r := Init(s, width, height, block, baselineMm, fovDegrees, focalLengthPixels, allocate);
            && r.depthWidth == width / block && r.depthHeight == height / block
            && r.frameBufferSize == width * height * 2
            && r.depthBufferSize == r.depthWidth * r.depthHeight * 4
            && (allocate ==> Valid(r) && r.fills.left <= r.frameBufferSize && r.fills.right <= r.frameBufferSize)
  {
    var r := Init(s, width, height, block, baselineMm, fovDegrees, focalLengthPixels, allocate);
    GeometryProducts(r);
  }

  /** The size computation does wrap for large frames: a 65534 × 65534 frame
      gets a frame buffer size far below the two bytes per pixel it needs.
      Any frame whose byte size wraps has at least 2^31 pixels, so in C a
      signed `int` product has already overflowed, which is undefined
      behaviour: `width*height` at the size computation, and with a block of
      1 already the cell count `depth_width*depth_height` before it. The
      value here is the usual two's-complement result of that overflow,
      converted to `uint32_t` and doubled mod 2^32. */
  lemma InitSizesCanWrap(s: Session)
    ensures var r := Init(s, 65534, 65534, 2, 1.0, 1.0, 1.0, true);
            && r.frameBufferSize == 4294443016
            && r.frameBufferSize < 2 * r.pixelCount
            && !Valid(r)
  {
    InitRejectsExactly(65534, 65534, 2);
    var r := Init(s, 65534, 65534, 2, 1.0, 1.0, 1.0, true);
    GeometryProducts(r);
    assert r.pixelCount == 4294705156;
    assert r.frameBufferSize == Wrap32(8589410312) == Wrap32(4294443016);
    assert |r.frames.left| == r.frameBufferSize;
  }

  // ---------------------------------------------------------------------
  // Buffers

  /** Bind caller-owned buffers. `frameLength` counts 16-bit samples in each
      frame buffer and `depthLength` cells in the depth buffer; the caller's
      sequences must really be that long. Both lengths are checked against the
      pixel count, the depth one included. The C function has no `return` on
      success, so its result there is indeterminate: `None`. */
  function SetBuffers(s: Session, frames: PerSide<seq<bv8>>, frameLength: U32, depth: seq<real>, depthLength: U32)
    : (r: (Session, Option<bool>))
    requires 2 * frameLength <= |frames.left| && 2 * frameLength <= |frames.right|
    requires depthLength <= |depth|
    ensures r.1 == Some(false) <==> frameLength < s.pixelCount || depthLength < s.pixelCount
    ensures r.1 != Some(false) ==> r.1 == None
    ensures r.1 == Some(false) ==> r.0 == s
    ensures r.1 == None ==>
              && r.0.storage == Borrowed && r.0.frames == frames && r.0.depth == depth
              && r.0.fills == s.fills && r.0.status == s.status
              && r.0.(storage := s.storage, frames := s.frames, depth := s.depth) == s
  {
    if frameLength < s.pixelCount || depthLength < s.pixelCount then (s, Some(false))
    else (s.(frames := frames, depth := depth, storage := Borrowed), None)
  }

  /** Binding buffers that pass the length checks to a set-up session makes it
      ready to process: the depth check against the pixel count is stricter
      than the cell count needs. */
  lemma SetBuffersMakesValid(s: Session, frames: PerSide<seq<bv8>>, frameLength: U32, depth: seq<real>, depthLength: U32)
    requires Geometry(s)
    requires 2 * frameLength <= |frames.left| && 2 * frameLength <= |frames.right|
    requires depthLength <= |depth|
    requires SetBuffers(s, frames, frameLength, depth, depthLength).1 == None
    ensures Valid(SetBuffers(s, frames, frameLength, depth, depthLength).0)
  {
    CellsWithinPixels(s);
  }

  // ---------------------------------------------------------------------
  // Observers

  function SetOnGrayscale(s: Session, o: Observer): (r: Session)
    ensures r.onGrayscale == o && r.(onGrayscale := s.onGrayscale) == s
  {
    s.(onGrayscale := o)
  }

  function SetOnDisparity(s: Session, o: Observer): (r: Session)
    ensures r.onDisparity == o && r.(onDisparity := s.onDisparity) == s
  {
    s.(onDisparity := o)
  }

  function SetOnDepth(s: Session, o: Observer): (r: Session)
    ensures r.onDepth == o && r.(onDepth := s.onDepth) == s
  {
    s.(onDepth := o)
  }

  // ---------------------------------------------------------------------
  // Status

  function GetStatusCode(s: Session): Status {
    s.status
  }

  /** Recording a status is read back by `GetStatusCode` and changes nothing else. */
  function SetStatusCode(s: Session, code: Status): (r: Session)
    ensures GetStatusCode(r) == code
    ensures r.(status := s.status) == s
  {
    s.(status := code)
  }

  // ---------------------------------------------------------------------
  // Teardown

  /** Release the buffers if the session owns them, then mark the buffers as
      unset. Caller-owned buffers are never released. */
  function Destroy(s: Session): (r: (Session, seq<Event>))
    ensures r.0.storage == Unset
    ensures r.0.(storage := s.storage) == s
    ensures |r.1| > 0 <==> s.storage == Owned
    ensures s.storage == Owned ==> r.1 == [Released(LeftFrame), Released(RightFrame), Released(DepthBuffer)]
  {
    var released := if s.storage == Owned then [Released(LeftFrame), Released(RightFrame), Released(DepthBuffer)] else [];
    (s.(storage := Unset), released)
  }

  /** A second teardown releases nothing, whatever the first one did. */
  lemma DestroyTwiceReleasesOnce(s: Session)
    ensures Destroy(Destroy(s).0).1 == []
    ensures Destroy(Destroy(s).0).0 == Destroy(s).0
  {
  }
}

=== FILE: matching.dfy ===
/** Block comparison and the best-candidate rule of the disparity search.

    A comparison strategy scores a `dims × dims` window of the reference
    (left) intensity frame against an equally sized window of the comparison
    (right) frame; both frames are full-frame buffers indexed with the frame
    width as row stride. Lower scores mean more similar windows. The default
    strategy is the sum of absolute differences (SAD). */
module Matching {
  import opened Types
  import opened Rgb565

  const MAX_SAMPLE: nat := 0xFFFF

  /** A comparison strategy: (frame width, reference frame, comparison frame,
      reference window x, y, comparison window x, y, window edge) to score.
      The C strategy receives the whole session; the only field SAD reads from
      it is the width, which is what the model passes. */
  type Comparer = (U16, seq<bv8>, seq<bv8>, U16, U16, U16, U16, U8) -> U32

  /** Sample `x` of the row of `buf` that starts at sample `start`, as the
      unsigned integer the C code widens it to. */
  function RowLevel(buf: seq<bv8>, start: nat, x: nat): (v: nat)
    ensures v <= MAX_SAMPLE
  {
    Sample(buf, start + x) as nat
  }

  function AbsDiff(a: nat, b: nat): (d: nat)
    ensures d == 0 <==> a == b
    ensures a <= MAX_SAMPLE && b <= MAX_SAMPLE ==> d <= MAX_SAMPLE
  {
    if a < b then b - a else a - b
  }

  /** Sum of `|o[oStart + x] - c[cStart + x]|` for `x < n`. */
  function RowSad(o: seq<bv8>, c: seq<bv8>, oStart: nat, cStart: nat, n: nat): (r: nat)
    ensures r <= n * MAX_SAMPLE
    decreases n
  {
    if n == 0 then 0
    else RowSad(o, c, oStart, cStart, n - 1) + AbsDiff(RowLevel(o, oStart, n - 1), RowLevel(c, cStart, n - 1))
  }

  /** Index of pixel `(x, y)` in a frame of the given width. */
  function PixelIndex(width: nat, x: nat, y: nat): nat {
    y * width + x
  }

  /** SAD over the first `rows` rows of the window. */
  function WindowSad(width: nat, o: seq<bv8>, c: seq<bv8>, ox: nat, oy: nat, cx: nat, cy: nat, dims: nat, rows: nat): (r: nat)
    ensures r <= rows * (dims * MAX_SAMPLE)
    decreases rows
  {
    if rows == 0 then 0
    else
      WindowSad(width, o, c, ox, oy, cx, cy, dims, rows - 1)
      + RowSad(o, c, PixelIndex(width, ox, oy + rows - 1), PixelIndex(width, cx, cy + rows - 1), dims)
  }

  lemma SadFitsInU32(dims: U8)
    ensures dims * (dims * MAX_SAMPLE) < TWO_POW_32
  {
    assert dims * MAX_SAMPLE <= 255 * MAX_SAMPLE;
    assert dims * (dims * MAX_SAMPLE) <= dims * (255 * MAX_SAMPLE);
    assert dims * (255 * MAX_SAMPLE) <= 255 * (255 * MAX_SAMPLE);
  }

  /** The default strategy. With 16-bit samples and a window edge of at most
      255 the sum stays below 65025 · 65535, so the `uint32_t` accumulator of
      the source never wraps. */
  function Sad(width: U16, o: seq<bv8>, c: seq<bv8>, ox: U16, oy: U16, cx: U16, cy: U16, dims: U8): (r: U32)
    ensures r <= dims * (dims * MAX_SAMPLE)
  {
    SadFitsInU32(dims);
    WindowSad(width, o, c, ox, oy, cx, cy, dims, dims)
  }

  /** Two rows agree sample by sample. */
  ghost predicate RowsMatch(o: seq<bv8>, c: seq<bv8>, oStart: nat, cStart: nat, n: nat) {
    forall x :: 0 <= x < n ==> RowLevel(o, oStart, x) == RowLevel(c, cStart, x)
  }

  lemma {:induction false} RowSadZeroIff(o: seq<bv8>, c: seq<bv8>, oStart: nat, cStart: nat, n: nat)
    ensures RowSad(o, c, oStart, cStart, n) == 0 <==> RowsMatch(o, c, oStart, cStart, n)
    decreases n
  {
    if n > 0 {
      RowSadZeroIff(o, c, oStart, cStart, n - 1);
      if RowsMatch(o, c, oStart, cStart, n) {
        assert RowsMatch(o, c, oStart, cStart, n - 1);
      }
    }
  }

  /** Row `y` of the two windows agree sample by sample. */
  ghost predicate WindowRowMatches(width: nat, o: seq<bv8>, c: seq<bv8>, ox: nat, oy: nat, cx: nat, cy: nat, dims: nat, y: nat) {
    RowsMatch(o, c, PixelIndex(width, ox, oy + y), PixelIndex(width, cx, cy + y), dims)
  }

  /** The first `rows` rows of the two windows agree sample by sample. */
  ghost predicate WindowsMatch(width: nat, o: seq<bv8>, c: seq<bv8>, ox: nat, oy: nat, cx: nat, cy: nat, dims: nat, rows: nat) {
    forall y :: 0 <= y < rows ==> WindowRowMatches(width, o, c, ox, oy, cx, cy, dims, y)
  }

  lemma {:induction false} WindowSadZeroIff(width: nat, o: seq<bv8>, c: seq<bv8>, ox: nat, oy: nat, cx: nat, cy: nat, dims: nat, rows: nat)
    ensures WindowSad(width, o, c, ox, oy, cx, cy, dims, rows) == 0 <==> WindowsMatch(width, o, c, ox, oy, cx, cy, dims, rows)
    decreases rows
  {
    if rows > 0 {
      WindowSadZeroIff(width, o, c, ox, oy, cx, cy, dims, rows - 1);
      RowSadZeroIff(o, c, PixelIndex(width, ox, oy + rows - 1), PixelIndex(width, cx, cy + rows - 1), dims);
      assert WindowsMatch(width, o, c, ox, oy, cx, cy, dims, rows)
        <==> WindowsMatch(width, o, c, ox, oy, cx, cy, dims, rows - 1) && WindowRowMatches(width, o, c, ox, oy, cx, cy, dims, rows - 1);
    }
  }

  /** SAD is zero exactly when the two windows hold the same samples. */
  lemma SadZeroIffWindowsMatch(width: U16, o: seq<bv8>, c: seq<bv8>, ox: U16, oy: U16, cx: U16, cy: U16, dims: U8)
    ensures Sad(width, o, c, ox, oy, cx, cy, dims) == 0 <==> WindowsMatch(width, o, c, ox, oy, cx, cy, dims, dims)
  {
    WindowSadZeroIff(width, o, c, ox, oy, cx, cy, dims, dims);
  }

  lemma {:induction false} RowSadSymmetric(o: seq<bv8>, c: seq<bv8>, oStart: nat, cStart: nat, n: nat)
    ensures RowSad(o, c, oStart, cStart, n) == RowSad(c, o, cStart, oStart, n)
    decreases n
  {
    if n > 0 {
      RowSadSymmetric(o, c, oStart, cStart, n - 1);
    }
  }

  lemma {:induction false} WindowSadSymmetric(width: nat, o: seq<bv8>, c: seq<bv8>, ox: nat, oy: nat, cx: nat, cy: nat, dims: nat, rows: nat)
    ensures WindowSad(width, o, c, ox, oy, cx, cy, dims, rows) == WindowSad(width, c, o, cx, cy, ox, oy, dims, rows)
    decreases rows
  {
    if rows > 0 {
      WindowSadSymmetric(width, o, c, ox, oy, cx, cy, dims, rows - 1);
      RowSadSymmetric(o, c, PixelIndex(width, ox, oy + rows - 1), PixelIndex(width, cx, cy + rows - 1), dims);
    }
  }

  /** Swapping the roles of the two windows does not change the SAD score. */
  lemma SadSymmetric(width: U16, o: seq<bv8>, c: seq<bv8>, ox: U16, oy: U16, cx: U16, cy: U16, dims: U8)
    ensures Sad(width, o, c, ox, oy, cx, cy, dims) == Sad(width, c, o, cx, cy, ox, oy, dims)
  {
    WindowSadSymmetric(width, o, c, ox, oy, cx, cy, dims, dims);
  }

  // ---------------------------------------------------------------------
  // The best candidate of a descending scan

  /** `rx` is what a scan of the candidates `hi, hi-1, .., 0` keeps when it
      replaces its best only on a strictly smaller score: a candidate of
      minimal score, and the largest such one. */
  ghost predicate IsBestCandidate(score: nat -> nat, hi: nat, rx: nat) {
    && rx <= hi
    && (forall c :: 0 <= c <= hi ==> score(rx) <= score(c))
    && (forall c :: rx < c <= hi ==> score(rx) < score(c))
  }

  /** The best candidate in `[0, hi]`, defined by recursion on `hi`: the best
      of `[0, hi-1]` wins against `hi` only with a strictly smaller score,
      because the scan meets `hi` first. */
  function BestCandidate(score: nat -> nat, hi: nat): (rx: nat)
    ensures rx <= hi
    ensures forall c :: 0 <= c <= hi ==> score(rx) <= score(c)
    ensures forall c :: rx < c <= hi ==> score(rx) < score(c)
    decreases hi
  {
    if hi == 0 then 0
    else
      var below := BestCandidate(score, hi - 1);
      if score(below) < score(hi) then below else hi
  }

  /** State of the descending scan once every candidate above `next` has been
      scored: `best` is the best candidate among them. Before the first step
      (`next == hi`) nothing is scored and `best` is `hi`. */
  ghost predicate ScanState(score: nat -> nat, hi: nat, next: int, best: nat) {
    && -1 <= next <= hi
    && best <= hi
    && (next < best || (next == hi && best == hi))
    && (forall c :: next < c <= hi ==> score(best) <= score(c))
    && (forall c :: best < c <= hi ==> score(best) < score(c))
  }

  /** Scoring candidate `next` keeps the scan state: the scan takes `next`
      exactly when it beats the best so far (any score beats the initial
      sentinel, modelled by `next == hi`). */
  lemma ScanStep(score: nat -> nat, hi: nat, next: nat, best: nat, taken: bool)
    requires ScanState(score, hi, next, best)
    requires taken ==> next == hi || score(next) < score(best)
    requires !taken ==> next == hi || score(best) <= score(next)
    ensures ScanState(score, hi, next - 1, if taken then next else best)
  {
  }

  /** A finished scan has found the best candidate. */
  lemma ScanFinds(score: nat -> nat, hi: nat, best: nat)
    requires ScanState(score, hi, -1, best)
    ensures best == BestCandidate(score, hi)
  {
    BestCandidateUnique(score, hi, best);
  }

  /** There is only one best candidate. */
  lemma BestCandidateUnique(score: nat -> nat, hi: nat, rx: nat)
    requires IsBestCandidate(score, hi, rx)
    ensures rx == BestCandidate(score, hi)
  {
  }
}

=== FILE: packer.dfy ===
/** The RGB888 to RGB565 packer of the C example program.

    It rewrites an interleaved 8-bit-per-channel image into 16-bit 5-6-5
    samples over the same bytes: pixel `i` is read from bytes
    `i*channels .. i*channels+2` and written to bytes `2i .. 2i+1`. Because
    `2i <= i*channels` once `channels >= 2`, no write reaches a byte that a
    later pixel still has to read, so the in-place result equals an
    out-of-place packing. */
module Packer {
  import opened Types
  import opened Rgb565

  /** One 5-6-5 sample from 8-bit red, green and blue: the top five, six and
      five bits of each channel moved into their fields. */
  function Pack565(r: bv8, g: bv8, b: bv8): bv16 {
    (((r >> 3) as bv16) << 11) | (((g >> 2) as bv16) << 5) | ((b >> 3) as bv16)
  }

  /** The three fields of a packed sample are disjoint, so the or-ing loses
      nothing: the library's masks and shifts give back exactly the truncated
      channels. */
  lemma DecodePacked(r: bv8, g: bv8, b: bv8)
    ensures Red(Pack565(r, g, b)) == (r >> 3) as bv16
    ensures Green(Pack565(r, g, b)) == (g >> 2) as bv16
    ensures Blue(Pack565(r, g, b)) == (b >> 3) as bv16
  {
  }

  /** The truncated channels fit their fields: at most 31, 63 and 31. */
  lemma TruncatedChannelsFit(r: bv8, g: bv8, b: bv8)
    ensures ((r >> 3) as nat) <= RED_FULL_SCALE
    ensures ((g >> 2) as nat) <= GREEN_FULL_SCALE
    ensures ((b >> 3) as nat) <= BLUE_FULL_SCALE
  {
    assert r >> 3 <= 31 && g >> 2 <= 63 && b >> 3 <= 31;
  }

  /** Packing, then decoding, then packing the decoded channels again (after
      widening them back to eight bits) is stable: a 5-6-5 image survives a
      round trip through the packer. */
  lemma RepackDecoded(p: bv16)
    ensures Pack565(((Red(p) as bv8) << 3), ((Green(p) as bv8) << 2), ((Blue(p) as bv8) << 3)) == p
  {
    assert Red(p) <= 31 && Green(p) <= 63 && Blue(p) <= 31;
    ChannelsRebuildSample(p);
  }

  /** The packed sample of pixel `i` of an interleaved image with `channels`
      bytes per pixel (0 for a pixel whose bytes are not all present). */
  function PixelOf(image: seq<bv8>, i: nat, channels: nat): bv16 {
    var base := i * channels;
    if base + 2 < |image| then Pack565(image[base], image[base + 1], image[base + 2]) else 0
  }

  /** The out-of-place packing of the first `pixelCount` pixels: two bytes per
      pixel, low byte first. */
  function PackedBytes(image: seq<bv8>, pixelCount: nat, channels: nat): (out: seq<bv8>)
    ensures |out| == 2 * pixelCount
    ensures forall i :: 0 <= i < pixelCount ==> Sample(out, i) == PixelOf(image, i, channels)
  {
    var out := seq(2 * pixelCount, k requires 0 <= k < 2 * pixelCount => ByteOf(PixelOf(image, k / 2, channels), k % 2));
    forall i | 0 <= i < pixelCount
      ensures Sample(out, i) == PixelOf(image, i, channels)
    {
      assert (2 * i) / 2 == i && (2 * i) % 2 == 0;
      assert (2 * i + 1) / 2 == i && (2 * i + 1) % 2 == 1;
      SampleOfBytes(out, i, PixelOf(image, i, channels));
    }
    out
  }

  lemma StrideAtLeastTwo(i: nat, channels: nat)
    requires channels >= 2
    ensures 2 * i <= i * channels
  {
  }

  lemma LastPixelBound(i: nat, pixelCount: nat, channels: nat, len: nat)
    requires i < pixelCount
    requires (pixelCount - 1) * channels + 3 <= len
    ensures i * channels + 2 < len
  {
    assert i * channels <= (pixelCount - 1) * channels;
  }

  /** Loop state of the packer after `i` pixels: the first `2i` bytes hold
      the packed samples of pixels `0 .. i-1`, every later byte is untouched. */
  ghost predicate PackedPrefix(buf: seq<bv8>, image: seq<bv8>, i: nat, channels: nat) {
    && |buf| == |image|
    && 2 * i <= |buf|
    && (forall k :: 0 <= k < 2 * i ==> buf[k] == ByteOf(PixelOf(image, k / 2, channels), k % 2))
    && (forall k :: 2 * i <= k < |image| ==> buf[k] == image[k])
  }

  /** One iteration reads input bytes only: pixel `i` starts at or after
      byte `2i`, which no earlier iteration has written. */
  lemma PackStepReadsInput(buf: seq<bv8>, image: seq<bv8>, i: nat, channels: nat)
    requires channels >= 2
    requires i * channels + 2 < |image|
    requires PackedPrefix(buf, image, i, channels)
    ensures Pack565(buf[i * channels], buf[i * channels + 1], buf[i * channels + 2]) == PixelOf(image, i, channels)
  {
    StrideAtLeastTwo(i, channels);
    assert buf[i * channels] == image[i * channels];
    assert buf[i * channels + 1] == image[i * channels + 1];
    assert buf[i * channels + 2] == image[i * channels + 2];
  }

  /** Writing the sample of pixel `i` at bytes `2i`, `2i+1` extends the
      packed prefix by one pixel. */
  lemma PackStepExtends(buf: seq<bv8>, image: seq<bv8>, i: nat, channels: nat, p: bv16)
    requires 2 * i + 1 < |image|
    requires PackedPrefix(buf, image, i, channels)
    requires p == PixelOf(image, i, channels)
    ensures PackedPrefix(buf[2 * i := LowByte(p)][2 * i + 1 := HighByte(p)], image, i + 1, channels)
  {
    var buf' := buf[2 * i := LowByte(p)][2 * i + 1 := HighByte(p)];
    assert (2 * i) / 2 == i && (2 * i) % 2 == 0;
    assert (2 * i + 1) / 2 == i && (2 * i + 1) % 2 == 1;
    assert buf'[2 * i] == ByteOf(p, 0);
    assert buf'[2 * i + 1] == ByteOf(p, 1);
    forall k | 0 <= k < 2 * (i + 1)
      ensures buf'[k] == ByteOf(PixelOf(image, k / 2, channels), k % 2)
    {
      if k < 2 * i {
        assert buf'[k] == buf[k];
      }
    }
  }

  /** A finished packed prefix equals the out-of-place packing. */
  lemma {:induction false} PrefixIsPacking(buf: seq<bv8>, image: seq<bv8>, pixelCount: nat, channels: nat)
    requires PackedPrefix(buf, image, pixelCount, channels)
    ensures buf[..2 * pixelCount] == PackedBytes(image, pixelCount, channels)
    ensures buf[2 * pixelCount..] == image[2 * pixelCount..]
    ensures forall i :: 0 <= i < pixelCount ==> Sample(buf, i) == PixelOf(image, i, channels)
  {
    var ref := PackedBytes(image, pixelCount, channels);
    assert buf[..2 * pixelCount] == ref;
    forall i | 0 <= i < pixelCount
      ensures Sample(buf, i) == PixelOf(image, i, channels)
    {
      assert buf[2 * i] == ref[2 * i] && buf[2 * i + 1] == ref[2 * i + 1];
      assert Sample(buf, i) == Sample(ref, i);
    }
  }

  /** The packer as written: returns the rewritten bytes and the byte size of
      the packed frame. `channels` is the stride of the input; values below 2
      make the loop read bytes it has already overwritten and are not modelled.
      The image must hold every byte the loop reads and stay below 4 GiB, so
      that the 32-bit index arithmetic does not wrap. */
  method ConvertRgb888ToRgb565(image: seq<bv8>, width: nat, height: nat, channels: nat)
    returns (packed: seq<bv8>, size: U32)
    requires channels >= 2
    requires |image| < TWO_POW_32
    requires width * height > 0 ==> (width * height - 1) * channels + 3 <= |image|
    ensures size == 2 * (width * height)
    ensures |packed| == |image| && 2 * (width * height) <= |image|
    ensures packed[..2 * (width * height)] == PackedBytes(image, width * height, channels)
    ensures packed[2 * (width * height)..] == image[2 * (width * height)..]
    ensures forall i :: 0 <= i < width * height ==>
              var base := i * channels;
              && base + 2 < |image|
              && Sample(packed, i) == Pack565(image[base], image[base + 1], image[base + 2])
  {
    var pixelCount := width * height;
    var buf := PackPixels(image, pixelCount, channels);
    PrefixIsPacking(buf, image, pixelCount, channels);
    PixelsReadStride(buf, image, pixelCount, channels);
    packed := buf;
    size := 2 * pixelCount;
  }

  /** The loop of the packer: pixel by pixel, ascending, each sample written
      over the bytes it was read from or earlier ones. */
  method PackPixels(image: seq<bv8>, pixelCount: nat, channels: nat) returns (buf: seq<bv8>)
    requires channels >= 2
    requires pixelCount > 0 ==> (pixelCount - 1) * channels + 3 <= |image|
    ensures PackedPrefix(buf, image, pixelCount, channels)
  {
    if pixelCount > 0 {
      StrideAtLeastTwo(pixelCount - 1, channels);
    }
    buf := image;
    var i := 0;
    while i < pixelCount
      invariant 0 <= i <= pixelCount
      invariant PackedPrefix(buf, image, i, channels)
    {
      var base := i * channels;
      LastPixelBound(i, pixelCount, channels, |image|);
      StrideAtLeastTwo(i, channels);
      PackStepReadsInput(buf, image, i, channels);
      var p := Pack565(buf[base], buf[base + 1], buf[base + 2]);
      PackStepExtends(buf, image, i, channels, p);
      buf := buf[2 * i := LowByte(p)][2 * i + 1 := HighByte(p)];
      i := i + 1;
    }
  }

  /** A packing that agrees with `PixelOf` on every pixel holds, at sample
      `i`, the 5-6-5 packing of the input bytes at `i*channels`, `+1`, `+2`. */
  lemma PixelsReadStride(packed: seq<bv8>, image: seq<bv8>, pixelCount: nat, channels: nat)
    requires pixelCount > 0 ==> (pixelCount - 1) * channels + 3 <= |image|
    requires 2 * pixelCount <= |packed|
    requires forall i :: 0 <= i < pixelCount ==> Sample(packed, i) == PixelOf(image, i, channels)
    ensures forall i :: 0 <= i < pixelCount ==>
              var base := i * channels;
              && base + 2 < |image|
              && Sample(packed, i) == Pack565(image[base], image[base + 1], image[base + 2])
  {
    forall i | 0 <= i < pixelCount
      ensures i * channels + 2 < |image|
      ensures Sample(packed, i) == Pack565(image[i * channels], image[i * channels + 1], image[i * channels + 2])
    {
      LastPixelBound(i, pixelCount, channels, |image|);
    }
  }
}

=== FILE: pipeline.dfy ===
/** The processing stages a completed frame pair goes through: intensity
    conversion, the disparity search over the depth grid, and the conversion of
    disparities into depths, with the observer notifications between them. */
module Pipeline {
  import opened Types
  import opened Arith
  import opened Rgb565
  import opened Matching
  import opened Lifecycle

  // ---------------------------------------------------------------------
  // Disparity search

  /** The window of grid cell `(cx, cy)` lies inside the frame. */
  lemma CellOrigin(s: Session, cx: nat, cy: nat)
    requires Geometry(s) && cx < s.depthWidth && cy < s.depthHeight
    ensures Origin(s, cx) + s.block <= s.width
    ensures Origin(s, cy) + s.block <= s.height
  {
    GeometryProducts(s);
    BlockFits(cx, s.depthWidth, s.block, s.width);
    BlockFits(cy, s.depthHeight, s.block, s.height);
  }

  /** Score of each candidate position `rx` for the window at `(sx, sy)`:
      the strategy applied to the left window at `(sx, sy)` and the right
      window at `(rx, sy)`. Only candidates up to `sx` are ever scored. */
  function Scores(comparer: Comparer, width: U16, left: seq<bv8>, right: seq<bv8>, sx: U16, sy: U16, block: U8): nat -> nat {
    (rx: nat) => if rx <= sx then comparer(width, left, right, sx, sy, rx, sy, block) else 0
  }

  /** The scores the search for the window at `(sx, sy)` of a session compares. */
  function CellScores(s: Session, sx: U16, sy: U16): nat -> nat {
    Scores(s.comparer, s.width, s.frames.left, s.frames.right, sx, sy, s.block)
  }

  /** Position of the window of grid column `cx` (or row) in samples. */
  function Origin(s: Session, c: nat): nat {
    c * s.block
  }

  /** Disparity of grid cell `(cx, cy)`: how far left of the cell's own
      position the best-matching window of the right frame starts. */
  function CellDisparity(s: Session, cx: nat, cy: nat): nat
    requires Geometry(s) && cx < s.depthWidth && cy < s.depthHeight
  {
    CellOrigin(s, cx, cy);
    var sx: U16 := Origin(s, cx);
    sx - BestCandidate(CellScores(s, sx, Origin(s, cy)), sx)
  }

  /** A disparity never exceeds the cell's own position, so it is less than
      the frame width and fits the `uint16_t` the search returns. */
  lemma CellDisparityBound(s: Session, cx: nat, cy: nat)
    requires Geometry(s) && cx < s.depthWidth && cy < s.depthHeight
    ensures CellDisparity(s, cx, cy) <= Origin(s, cx) < s.width
  {
    CellOrigin(s, cx, cy);
  }

  /** The scan of the search as written: candidates `rx` from `sx` down to 0,
      keeping the first one of strictly smallest score, starting from the
      largest `uint32_t` value. */
  method ScanCandidates(comparer: Comparer, width: U16, left: seq<bv8>, right: seq<bv8>, sx: U16, sy: U16, block: U8)
    returns (best: U16)
    ensures IsBestCandidate(Scores(comparer, width, left, right, sx, sy, block), sx, best)
    ensures best == BestCandidate(Scores(comparer, width, left, right, sx, sy, block), sx)
  {
    ghost var score := Scores(comparer, width, left, right, sx, sy, block);
    best := sx;
    var smallest: U32 := 0xFFFF_FFFF;
    var rx: int := sx;
    while rx >= 0 && rx <= sx
      invariant ScanState(score, sx, rx, best)
      invariant rx < sx ==> smallest == score(best)
      invariant rx == sx ==> smallest == 0xFFFF_FFFF
      decreases rx + 1
    {
      var current := comparer(width, left, right, sx, sy, rx, sy, block);
      assert current == score(rx);
      ScanStep(score, sx, rx, best, current < smallest);
      if current < smallest {
        smallest := current;
        best := rx;
      }
      rx := rx - 1;
    }
    ScanFinds(score, sx, best);
  }

  /** The search for grid cell `(cx, cy)`: the distance from the cell's own
      position to the best candidate of the scan. */
  method DisparitySearch(s: Session, cx: U16, cy: U16) returns (d: U16)
    requires Geometry(s) && cx < s.depthWidth && cy < s.depthHeight
    ensures d == CellDisparity(s, cx, cy)
  {
    CellOrigin(s, cx, cy);
    var sx: U16 := cx * s.block;
    var sy: U16 := cy * s.block;
    var best := ScanCandidates(s.comparer, s.width, s.frames.left, s.frames.right, sx, sy, s.block);
    d := sx - best;
  }

  /** Every sample a search window reads lies inside both frames: the left
      window at `(cx·block, cy·block)` and any candidate window to its left. */
  lemma WindowInBounds(s: Session, cx: nat, cy: nat, rx: nat, x: nat, y: nat)
    requires Valid(s) && cx < s.depthWidth && cy < s.depthHeight
    requires rx <= Origin(s, cx) && x < s.block && y < s.block
    ensures HasSample(s.frames.left, PixelIndex(s.width, Origin(s, cx) + x, Origin(s, cy) + y))
    ensures HasSample(s.frames.right, PixelIndex(s.width, rx + x, Origin(s, cy) + y))
  {
    GeometryProducts(s);
    CellOrigin(s, cx, cy);
    CellIndex(Origin(s, cx) + x, Origin(s, cy) + y, s.width, s.height);
    CellIndex(rx + x, Origin(s, cy) + y, s.width, s.height);
  }

  /** A strategy that scores every pair of windows alike never beats the
      first candidate, so every cell gets disparity 0. */
  lemma ConstantComparerGivesZero(s: Session, cx: nat, cy: nat, k: U32)
    requires Geometry(s) && cx < s.depthWidth && cy < s.depthHeight
    requires forall w, o, c, ox, oy, qx, qy, b :: s.comparer(w, o, c, ox, oy, qx, qy, b) == k
    ensures CellDisparity(s, cx, cy) == 0
  {
    CellOrigin(s, cx, cy);
  }

  /** With the default strategy and identical frames, every cell's own
      position matches perfectly (SAD 0), and no candidate to its left can
      score strictly lower, so every disparity is 0. */
  lemma IdenticalFramesGiveZero(s: Session, cx: nat, cy: nat)
    requires Geometry(s) && cx < s.depthWidth && cy < s.depthHeight
    requires s.comparer == Sad
    requires s.frames.left == s.frames.right
    ensures CellDisparity(s, cx, cy) == 0
  {
    CellOrigin(s, cx, cy);
    var sx: U16 := Origin(s, cx);
    var sy: U16 := Origin(s, cy);
    SadZeroIffWindowsMatch(s.width, s.frames.left, s.frames.right, sx, sy, sx, sy, s.block);
    assert CellScores(s, sx, sy)(sx) == 0;
  }

  // ---------------------------------------------------------------------
  // Depth reconstruction

  /** Depth of one cell from the disparity stored there. A usable disparity
      (at least one pixel, less than the frame width) is inversely
      proportional to depth, with focal length times baseline as the
      constant; any other value yields the maximum-depth sentinel. */
  function DepthOf(d: real, width: U16, focal: real, baseline: real, maxDepth: real): (z: real)
    ensures 1.0 <= d < width as real ==> z * d == focal * baseline
    ensures !(1.0 <= d < width as real) ==> z == maxDepth
  {
    if 1.0 <= d && d < width as real then focal * baseline / d else maxDepth
  }

  /** With the sentinel set up as `Init` sets it (the depth of a one-pixel
      disparity) and a positive focal length and baseline, every usable
      disparity gives a depth in `(0, sentinel]`. */
  lemma DepthWithinSentinel(d: real, width: U16, focal: real, baseline: real)
    requires focal > 0.0 && baseline > 0.0
    requires 1.0 <= d < width as real
    ensures var maxDepth := focal * baseline;
            0.0 < DepthOf(d, width, focal, baseline, maxDepth) <= maxDepth
  {
    var fb := focal * baseline;
    var z := DepthOf(d, width, focal, baseline, fb);
    assert z * d == fb;
    PositiveProduct(focal, baseline);
    PositiveFactor(z, d);
    var excess := d - 1.0;
    NonNegativeProduct(z, excess);
    assert fb == z + z * excess;
  }

  /** Depth decreases as disparity grows: of two usable disparities, the
      larger one gives the strictly smaller depth. */
  lemma DepthDecreasesWithDisparity(d: real, d': real, width: U16, focal: real, baseline: real, maxDepth: real)
    requires focal > 0.0 && baseline > 0.0
    requires 1.0 <= d < d' < width as real
    ensures DepthOf(d', width, focal, baseline, maxDepth) < DepthOf(d, width, focal, baseline, maxDepth)
  {
    var fb := focal * baseline;
    var z, z' := DepthOf(d, width, focal, baseline, maxDepth), DepthOf(d', width, focal, baseline, maxDepth);
    assert z * d == fb && z' * d' == fb;
    PositiveProduct(focal, baseline);
    PositiveFactor(z, d);
    var gap, drop := d' - d, z - z';
    PositiveProduct(z, gap);
    assert drop * d' == z * gap;
    PositiveFactor(drop, d');
  }

  lemma PositiveProduct(a: real, b: real)
    requires a > 0.0 && b > 0.0
    ensures a * b > 0.0
  {
  }

  lemma NonNegativeProduct(a: real, b: real)
    requires a >= 0.0 && b >= 0.0
    ensures a * b >= 0.0
  {
  }

  lemma PositiveFactor(a: real, b: real)
    requires a * b > 0.0 && b > 0.0
    ensures a > 0.0
  {
  }

  /** Depth conversion of the first `cellCount` cells of a disparity map;
      entries past the grid are left alone. */
  function CalculateDepth(s: Session, m: seq<real>): (r: seq<real>)
    requires s.cellCount <= |m|
    ensures |r| == |m|
    ensures forall k :: 0 <= k < s.cellCount ==>
              r[k] == DepthOf(m[k], s.width, s.focalLengthPixels, s.baselineMm, s.maxDepthMm)
    ensures forall k :: s.cellCount <= k < |m| ==> r[k] == m[k]
  {
    seq(|m|, k requires 0 <= k < |m| =>
      if k < s.cellCount then DepthOf(m[k], s.width, s.focalLengthPixels, s.baselineMm, s.maxDepthMm) else m[k])
  }

  // ---------------------------------------------------------------------
  // The disparity map

  /** Index of grid cell `(cx, cy)` in the depth buffer: row-major with the
      grid width as stride. */
  function GridIndex(s: Session, cx: nat, cy: nat): nat {
    cy * s.depthWidth + cx
  }

  /** Row `cy` of the grid as the inner loop of the search fills it. */
  function GridRow(s: Session, cy: nat): (row: seq<real>)
    requires Geometry(s) && cy < s.depthHeight
    ensures |row| == s.depthWidth
    ensures forall cx :: 0 <= cx < s.depthWidth ==> row[cx] == CellDisparity(s, cx, cy) as real
  {
    seq(s.depthWidth, cx requires 0 <= cx < s.depthWidth => CellDisparity(s, cx, cy) as real)
  }

  /** The first `n` rows of the grid, as the outer loop has filled them. */
  function GridRows(s: Session, n: nat): (m: seq<real>)
    requires Geometry(s) && n <= s.depthHeight
    ensures |m| == n * s.depthWidth
    decreases n
  {
    if n == 0 then []
    else
      var m := GridRows(s, n - 1) + GridRow(s, n - 1);
      assert |m| == (n - 1) * s.depthWidth + s.depthWidth;
      m
  }

  /** Cell `(cx, cy)` of the first `n` rows sits at its row-major index. */
  lemma {:induction false} GridRowsCell(s: Session, n: nat, cx: nat, cy: nat)
    requires Geometry(s) && n <= s.depthHeight
    requires cx < s.depthWidth && cy < n
    ensures GridIndex(s, cx, cy) < |GridRows(s, n)|
    ensures GridRows(s, n)[GridIndex(s, cx, cy)] == CellDisparity(s, cx, cy) as real
    decreases n
  {
    var prefix := GridRows(s, n - 1);
    assert GridRows(s, n) == prefix + GridRow(s, n - 1);
    if cy < n - 1 {
      GridRowsCell(s, n - 1, cx, cy);
    } else {
      assert GridIndex(s, cx, cy) == |prefix| + cx;
    }
  }

  /** The depth buffer after the search loops: the grid rows in order,
      entries past the grid left alone. */
  function DisparityMap(s: Session): (m: seq<real>)
    requires Valid(s)
    ensures |m| == |s.depth|
    ensures forall k :: s.cellCount <= k < |m| ==> m[k] == s.depth[k]
  {
    GeometryProducts(s);
    var grid := GridRows(s, s.depthHeight);
    assert |grid| == s.cellCount;
    grid + s.depth[s.cellCount..]
  }

  /** The two nested loops of the search visit every grid cell once, at its
      row-major index, and store that cell's disparity there. */
  lemma DisparityMapCells(s: Session, cx: nat, cy: nat)
    requires Valid(s) && cx < s.depthWidth && cy < s.depthHeight
    ensures GridIndex(s, cx, cy) < s.cellCount
    ensures DisparityMap(s)[GridIndex(s, cx, cy)] == CellDisparity(s, cx, cy) as real
  {
    GeometryProducts(s);
    GridRowsCell(s, s.depthHeight, cx, cy);
    var grid := GridRows(s, s.depthHeight);
    assert |grid| == s.cellCount;
    assert DisparityMap(s) == grid + s.depth[s.cellCount..];
  }

  // ---------------------------------------------------------------------
  // Processing a completed frame pair

  /** Both frames converted to intensity in place, both counters reset. */
  function Intensity(s: Session): (r: Session)
    requires Valid(s)
    ensures Valid(r)
    ensures r.fills == PerSide(0, 0)
    ensures forall side: Side, i :: 0 <= i < s.pixelCount ==>
              Sample(r.frames.Get(side), i) == Gray(Sample(s.frames.Get(side), i))
    ensures forall side: Side :: |r.frames.Get(side)| == |s.frames.Get(side)|
    ensures forall side: Side, k :: 2 * s.pixelCount <= k < |s.frames.Get(side)| ==>
              r.frames.Get(side)[k] == s.frames.Get(side)[k]
    ensures r == s.(frames := r.frames, fills := PerSide(0, 0))
  {
    s.(fills := PerSide(0, 0),
       frames := PerSide(ConvertToGrayscale(s.frames.left, s.pixelCount),
                         ConvertToGrayscale(s.frames.right, s.pixelCount)))
  }

  /** The intensity notifications: one per side, left first, each carrying
      that side's buffer as it is at the time of the call. */
  function GrayscaleEvents(s: Session): seq<Event> {
    match s.onGrayscale
    case Unregistered => []
    case Registered(c) => [GrayscaleReady(c, Left, s.frames.left, s.width, s.height),
                           GrayscaleReady(c, Right, s.frames.right, s.width, s.height)]
  }

  function DisparityEvents(s: Session, m: seq<real>): seq<Event> {
    match s.onDisparity
    case Unregistered => []
    case Registered(c) => [DisparityReady(c, m, s.depthWidth, s.depthHeight)]
  }

  function DepthEvents(s: Session, z: seq<real>): seq<Event> {
    match s.onDepth
    case Unregistered => []
    case Registered(c) => [DepthReady(c, z, s.depthWidth, s.depthHeight, s.maxDepthMm)]
  }

  /** Processing a frame pair: reset the counters, convert both frames to
      intensity, notify, fill the grid with disparities, notify, convert them
      to depths, notify. Returns the session and the notifications in the
      order they are made. */
  function Process(s: Session): (r: (Session, seq<Event>))
    requires Valid(s)
    ensures Valid(r.0)
    ensures r.0.fills == PerSide(0, 0)
    ensures forall side: Side, i :: 0 <= i < s.pixelCount ==>
              Sample(r.0.frames.Get(side), i) == Gray(Sample(s.frames.Get(side), i))
    ensures forall side: Side :: |r.0.frames.Get(side)| == |s.frames.Get(side)|
    ensures forall side: Side, k :: 2 * s.pixelCount <= k < |s.frames.Get(side)| ==>
              r.0.frames.Get(side)[k] == s.frames.Get(side)[k]
    ensures |r.0.depth| == |s.depth|
    ensures forall k :: s.cellCount <= k < |s.depth| ==> r.0.depth[k] == s.depth[k]
    ensures r.0 == s.(frames := r.0.frames, depth := r.0.depth, fills := PerSide(0, 0))
  {
    var g := Intensity(s);
    var m := DisparityMap(g);
    var z := CalculateDepth(g, m);
    (g.(depth := z), GrayscaleEvents(g) + DisparityEvents(g, m) + DepthEvents(g, z))
  }

  /** After processing, grid cell `(cx, cy)` of the depth buffer holds the
      depth of the disparity the search finds for it on the intensity frames,
      and the disparity notification carried that disparity at the same
      index. */
  lemma ProcessCell(s: Session, cx: nat, cy: nat)
    requires Valid(s) && cx < s.depthWidth && cy < s.depthHeight
    ensures var r := Process(s).0;
            && GridIndex(s, cx, cy) < s.cellCount
            && r.depth[GridIndex(s, cx, cy)]
               == DepthOf(CellDisparity(r, cx, cy) as real, s.width, s.focalLengthPixels, s.baselineMm, s.maxDepthMm)
  {
    var g := Intensity(s);
    DisparityMapCells(g, cx, cy);
  }

  /** With the default strategy, a frame pair whose two colour frames are
      identical gives identical intensity frames, disparity 0 everywhere, and
      so the maximum-depth sentinel in every grid cell. */
  lemma IdenticalFramesGiveSentinel(s: Session, cx: nat, cy: nat)
    requires Valid(s) && cx < s.depthWidth && cy < s.depthHeight
    requires s.comparer == Sad
    requires s.frames.left == s.frames.right
    ensures GridIndex(s, cx, cy) < s.cellCount
    ensures Process(s).0.depth[GridIndex(s, cx, cy)] == s.maxDepthMm
  {
    ProcessCell(s, cx, cy);
    IdenticalFramesGiveZero(Process(s).0, cx, cy);
  }

  /** The rank of a notification in the order processing makes them. */
  function Rank(e: Event): nat {
    match e
    case GrayscaleReady(_, side, _, _, _) => if side == Left then 0 else 1
    case DisparityReady(_, _, _, _) => 2
    case DepthReady(_, _, _, _, _) => 3
    case Released(_) => 4
  }

  /** The ranks of a trace, in trace order. */
  function Ranks(t: seq<Event>): (r: seq<nat>)
    ensures |r| == |t|
  {
    seq(|t|, i requires 0 <= i < |t| => Rank(t[i]))
  }

  lemma RanksConcat(a: seq<Event>, b: seq<Event>)
    ensures Ranks(a + b) == Ranks(a) + Ranks(b)
  {
    assert forall i :: 0 <= i < |a| ==> (a + b)[i] == a[i];
    assert forall i :: |a| <= i < |a + b| ==> (a + b)[i] == b[i - |a|];
  }

  /** The ranks processing emits for the given observers: both intensity
      notifications, then disparity, then depth, each only when observed. */
  function ExpectedRanks(s: Session): seq<nat> {
    (if s.onGrayscale.Registered? then [0, 1] else [])
    + (if s.onDisparity.Registered? then [2] else [])
    + (if s.onDepth.Registered? then [3] else [])
  }

  /** Events built from any buffers have the ranks of the observers. */
  lemma NotificationOrder(g: Session, m: seq<real>, z: seq<real>)
    ensures Ranks(GrayscaleEvents(g) + DisparityEvents(g, m) + DepthEvents(g, z)) == ExpectedRanks(g)
  {
    var a, b, c := GrayscaleEvents(g), DisparityEvents(g, m), DepthEvents(g, z);
    RanksConcat(a, b);
    RanksConcat(a + b, c);
    assert Ranks(a) == if g.onGrayscale.Registered? then [0, 1] else [];
    assert Ranks(b) == if g.onDisparity.Registered? then [2] else [];
    assert Ranks(c) == if g.onDepth.Registered? then [3] else [];
  }

  /** The trace of one processing run: intensity left, intensity right,
      disparity, depth, in that order, each present exactly when its observer
      is registered, and no buffer released. */
  lemma ProcessTrace(s: Session)
    requires Valid(s)
    ensures Ranks(Process(s).1) == ExpectedRanks(s)
    ensures s.onGrayscale.Registered? && s.onDisparity.Registered? && s.onDepth.Registered?
            ==> |Process(s).1| == 4
  {
    var g := Intensity(s);
    var m := DisparityMap(g);
    NotificationOrder(g, m, CalculateDepth(g, m));
  }

  /** What each notification of a processing run carries: the intensity
      frames, the disparity map, and the final depth buffer, each with the
      context of its observer. */
  lemma ProcessPayloads(s: Session, e: Event)
    requires Valid(s)
    requires e in Process(s).1
    ensures var r := Process(s).0;
            && (e.GrayscaleReady? ==> e == GrayscaleReady(s.onGrayscale.context, e.side, r.frames.Get(e.side), s.width, s.height))
            && (e.DisparityReady? ==> e == DisparityReady(s.onDisparity.context, DisparityMap(Intensity(s)), s.depthWidth, s.depthHeight))
            && (e.DepthReady? ==> e == DepthReady(s.onDepth.context, r.depth, s.depthWidth, s.depthHeight, s.maxDepthMm))
            && !e.Released?
  {
  }

  // ---------------------------------------------------------------------
  // Frame assembly

  /** The copy of a `len`-byte chunk stays inside the side's buffer. The C
      code copies without a check of its own; the counter test guards it
      unless the 32-bit counter wraps (see `CopyFitsWithoutWrap`). */
  ghost predicate CopyFits(s: Session, side: Side, len: nat) {
    Wrap32(s.fills.Get(side) + len) > s.frameBufferSize || len <= |s.frames.Get(side)|
  }

  /** In a valid session whose sizes did not wrap, the copy always fits as
      long as the counter does not wrap either. */
  lemma CopyFitsWithoutWrap(s: Session, side: Side, len: nat)
    requires Valid(s) && SizesFit(s)
    requires s.fills.Get(side) + len < TWO_POW_32
    ensures CopyFits(s, side, len)
  {
  }

  /** The counter update, overflow test and copy of `Feed`, before the
      completion test. Returns the session and whether the chunk was
      accepted. */
  function Assemble(s: Session, side: Side, chunk: seq<bv8>): (r: (Session, bool))
    requires |chunk| < TWO_POW_32
    requires CopyFits(s, side, |chunk|)
    ensures var fill := Wrap32(s.fills.Get(side) + |chunk|);
            && (r.1 <==> fill <= s.frameBufferSize)
            && r.0.fills.Get(side.Other()) == s.fills.Get(side.Other())
            && r.0.frames.Get(side.Other()) == s.frames.Get(side.Other())
            && (!r.1 ==> && r.0.fills.Get(side) == 0
                         && r.0.status == STATUS_FEED_OVERFLOW
                         && r.0.frames == s.frames)
            && (r.1 ==> && r.0.fills.Get(side) == fill
                        && r.0.status == s.status
                        && |r.0.frames.Get(side)| == |s.frames.Get(side)|
                        && r.0.frames.Get(side)[..|chunk|] == chunk
                        && r.0.frames.Get(side)[|chunk|..] == s.frames.Get(side)[|chunk|..])
    ensures r.0 == s.(frames := r.0.frames, fills := r.0.fills, status := r.0.status)
  {
    var fill := Wrap32(s.fills.Get(side) + |chunk|);
    if fill > s.frameBufferSize then
      (SetStatusCode(s.(fills := s.fills.Set(side, 0)), STATUS_FEED_OVERFLOW), false)
    else
      var prior := s.frames.Get(side);
      (s.(fills := s.fills.Set(side, fill), frames := s.frames.Set(side, chunk + prior[|chunk|..])), true)
  }

  /** What `Feed` returns: the session, the C return value, whether the pair
      was processed, and the notifications made. */
  datatype FeedResult = FeedResult(session: Session, ok: bool, processed: bool, events: seq<Event>)

  /** Feeding a chunk of one side's frame: assemble it, and process the pair
      when both counters have reached the frame size. */
  function Feed(s: Session, side: Side, chunk: seq<bv8>): (r: FeedResult)
    requires Valid(s)
    requires |chunk| < TWO_POW_32
    requires CopyFits(s, side, |chunk|)
    ensures Valid(r.session)
    ensures var fill := Wrap32(s.fills.Get(side) + |chunk|);
            && (r.ok <==> fill <= s.frameBufferSize)
            && (r.processed <==> r.ok && fill == s.frameBufferSize && s.fills.Get(side.Other()) == s.frameBufferSize)
    ensures r.processed ==> r.session.fills == PerSide(0, 0)
    ensures !r.processed ==> r.events == []
    ensures !r.processed ==> r.session == s.(frames := r.session.frames, fills := r.session.fills, status := r.session.status)
    ensures r.processed ==> r.session == s.(frames := r.session.frames, depth := r.session.depth, fills := PerSide(0, 0))
  {
    var (a, accepted) := Assemble(s, side, chunk);
    if accepted && a.fills.left == a.frameBufferSize && a.fills.right == a.frameBufferSize then
      var (p, events) := Process(a);
      FeedResult(p, true, true, events)
    else
      FeedResult(a, accepted, false, [])
  }

  /** An overflowing chunk is refused: nothing is copied, the side's counter
      restarts at 0, the status records the overflow, and the other side is
      untouched. */
  lemma FeedOverflowResets(s: Session, side: Side, chunk: seq<bv8>)
    requires Valid(s)
    requires |chunk| < TWO_POW_32
    requires Wrap32(s.fills.Get(side) + |chunk|) > s.frameBufferSize
    ensures CopyFits(s, side, |chunk|)
    ensures var r := Feed(s, side, chunk);
            && !r.ok && !r.processed && r.events == []
            && r.session.status == STATUS_FEED_OVERFLOW
            && r.session.fills.Get(side) == 0
            && r.session.fills.Get(side.Other()) == s.fills.Get(side.Other())
            && r.session.frames == s.frames
  {
  }

  /** An accepted chunk that does not complete the pair is copied to the
      start of the side's buffer; the bytes after it, the other side and the
      status stay as they were, and the side's counter grows by the chunk. */
  lemma FeedCopiesAtStart(s: Session, side: Side, chunk: seq<bv8>)
    requires Valid(s)
    requires |chunk| < TWO_POW_32
    requires CopyFits(s, side, |chunk|)
    requires Feed(s, side, chunk).ok && !Feed(s, side, chunk).processed
    ensures var r := Feed(s, side, chunk).session;
            && r.status == s.status
            && r.fills == s.fills.Set(side, Wrap32(s.fills.Get(side) + |chunk|))
            && r.frames.Get(side)[..|chunk|] == chunk
            && r.frames.Get(side)[|chunk|..] == s.frames.Get(side)[|chunk|..]
            && r.frames.Get(side.Other()) == s.frames.Get(side.Other())
  {
    var a := Assemble(s, side, chunk);
    var fill := Wrap32(s.fills.Get(side) + |chunk|);
    assert a.1;
    assert Feed(s, side, chunk).session == a.0;
    assert a.0.fills.Get(side) == fill && a.0.fills.Get(side.Other()) == s.fills.Get(side.Other());
    if side.Left? {
      assert a.0.fills == PerSide(fill, s.fills.right);
    } else {
      assert a.0.fills == PerSide(s.fills.left, fill);
    }
  }

  /** A chunk that brings its side's counter to the frame size while the
      other side is already complete processes the pair, and the feed makes
      the notifications of one processing run, in processing order. */
  lemma FeedTrace(s: Session, side: Side, chunk: seq<bv8>)
    requires Valid(s)
    requires |chunk| < TWO_POW_32
    requires CopyFits(s, side, |chunk|)
    requires Wrap32(s.fills.Get(side) + |chunk|) == s.frameBufferSize
    requires s.fills.Get(side.Other()) == s.frameBufferSize
    ensures Feed(s, side, chunk).processed
    ensures Ranks(Feed(s, side, chunk).events) == ExpectedRanks(s)
  {
    var a := Assemble(s, side, chunk).0;
    assert a.fills.Get(side) == s.frameBufferSize;
    assert a.fills.Get(side.Other()) == s.frameBufferSize;
    assert a.fills.left == a.frameBufferSize && a.fills.right == a.frameBufferSize by {
      if side.Left? {
        assert a.fills.left == a.fills.Get(side);
      } else {
        assert a.fills.right == a.fills.Get(side);
      }
    }
    assert Feed(s, side, chunk).events == Process(a).1;
    ProcessTrace(a);
  }

  /** The pair a completing feed processes is the assembled one: the chunk at
      the start of its side's buffer, the rest of that buffer as it was, and
      the other side's earlier frame. The feed ends exactly where processing
      that pair ends, and both frames then hold its intensity. */
  lemma FeedProcessesAssembledPair(s: Session, side: Side, chunk: seq<bv8>)
    requires Valid(s)
    requires |chunk| < TWO_POW_32
    requires CopyFits(s, side, |chunk|)
    requires Feed(s, side, chunk).processed
    ensures |chunk| <= |s.frames.Get(side)|
    ensures var pair := s.(frames := s.frames.Set(side, chunk + s.frames.Get(side)[|chunk|..]),
                           fills := PerSide(s.frameBufferSize, s.frameBufferSize));
            && Valid(pair)
            && Feed(s, side, chunk).session == Process(pair).0
            && Feed(s, side, chunk).events == Process(pair).1
    ensures var r := Feed(s, side, chunk).session;
            forall i :: 0 <= i < s.pixelCount ==>
              && Sample(r.frames.Get(side), i) == Gray(Sample(chunk + s.frames.Get(side)[|chunk|..], i))
              && Sample(r.frames.Get(side.Other()), i) == Gray(Sample(s.frames.Get(side.Other()), i))
  {
    var a := Assemble(s, side, chunk).0;
    var pair := s.(frames := s.frames.Set(side, chunk + s.frames.Get(side)[|chunk|..]),
                   fills := PerSide(s.frameBufferSize, s.frameBufferSize));
    assert a.frames.Get(side) == chunk + s.frames.Get(side)[|chunk|..];
    assert a.frames == pair.frames by {
      if side.Left? {
        assert a.frames.left == pair.frames.left;
      } else {
        assert a.frames.right == pair.frames.right;
      }
    }
    assert a.fills == pair.fills;
    assert a == pair;
  }

  /** Feeding fewer bytes than a frame needs, with the counter starting
      below it, leaves the status alone, succeeds, processes nothing and
      leaves the other side's counter as it was. */
  lemma PartialFeedWaits(s: Session, side: Side, chunk: seq<bv8>)
    requires Valid(s)
    requires s.fills.Get(side) + |chunk| < s.frameBufferSize
    ensures CopyFits(s, side, |chunk|)
    ensures var r := Feed(s, side, chunk);
            && r.ok && !r.processed && r.events == []
            && r.session.status == s.status
            && r.session.fills.Get(side) == s.fills.Get(side) + |chunk|
            && r.session.fills.Get(side.Other()) == s.fills.Get(side.Other())
  {
  }

  /** Feeding a full frame to each side, in either order, starting from
      empty counters, processes the pair exactly once: the first feed only
      assembles, the second processes and resets both counters. */
  lemma FramePairProcessesOnce(s: Session, side: Side, first: seq<bv8>, second: seq<bv8>)
    requires Valid(s)
    requires s.fills == PerSide(0, 0)
    requires s.frameBufferSize > 0
    requires |first| == s.frameBufferSize && |second| == s.frameBufferSize
    ensures CopyFits(s, side, |first|)
    ensures var r1 := Feed(s, side, first);
            && r1.ok && !r1.processed && r1.events == []
            && CopyFits(r1.session, side.Other(), |second|)
            && var r2 := Feed(r1.session, side.Other(), second);
               && r2.ok && r2.processed
               && r2.session.fills == PerSide(0, 0)
               && Ranks(r2.events) == ExpectedRanks(s)
  {
    var r1 := Feed(s, side, first);
    assert r1.session.fills.Get(side.Other()) == 0;
    FeedTrace(r1.session, side.Other(), second);
  }

  /** Chunks are not appended: each accepted chunk is copied to the start of
      the side's buffer, so a second chunk overwrites the first one's leading
      bytes instead of following them. */
  lemma ChunksOverwriteFromStart(s: Session, side: Side, a: seq<bv8>, b: seq<bv8>)
    requires Valid(s)
    requires s.fills.Get(side) + |a| + |b| < s.frameBufferSize
    requires |b| <= |a|
    ensures CopyFits(s, side, |a|)
    ensures var r1 := Feed(s, side, a);
            && CopyFits(r1.session, side, |b|)
            && var r2 := Feed(r1.session, side, b);
               && r2.ok && !r2.processed
               && r2.session.fills.Get(side) == s.fills.Get(side) + |a| + |b|
               && r2.session.frames.Get(side)[..|a|] == b + a[|b|..]
  {
    var r1 := Feed(s, side, a);
    FeedCopiesAtStart(s, side, a);
    var r2 := Feed(r1.session, side, b);
    FeedCopiesAtStart(r1.session, side, b);
    OverwriteAtStart(r1.session.frames.Get(side), r2.session.frames.Get(side), a, b);
  }

  lemma OverwriteAtStart(f1: seq<bv8>, f2: seq<bv8>, a: seq<bv8>, b: seq<bv8>)
    requires |b| <= |a| <= |f1| == |f2|
    requires f1[..|a|] == a
    requires f2[..|b|] == b && f2[|b|..] == f1[|b|..]
    ensures f2[..|a|] == b + a[|b|..]
  {
    assert f2[..|a|] == f2[..|b|] + f2[|b|..|a|];
    assert f2[|b|..|a|] == f1[|b|..|a|];
  }

  /** With both counters within the frame size before a feed, they are
      within it after the feed too. */
  lemma FeedKeepsFillsBounded(s: Session, side: Side, chunk: seq<bv8>)
    requires Valid(s)
    requires |chunk| < TWO_POW_32
    requires CopyFits(s, side, |chunk|)
    requires s.fills.left <= s.frameBufferSize && s.fills.right <= s.frameBufferSize
    ensures var r := Feed(s, side, chunk).session;
            r.fills.left <= r.frameBufferSize && r.fills.right <= r.frameBufferSize
  {
  }

  /** The byte count the packer returns for a frame of the session's size is
      the frame size `Feed` completes a frame at, as long as that size did
      not wrap. */
  lemma PackedSizeIsFrameSize(s: Session, width: nat, height: nat)
    requires Geometry(s) && SizesFit(s)
    requires width == s.width && height == s.height
    ensures 2 * (width * height) == s.frameBufferSize
  {
    GeometryProducts(s);
  }
}

=== FILE: rgb565.dfy ===
/** The 5-6-5 packed colour sample and its conversion to intensity.

    A frame is a byte sequence holding one 16-bit sample per pixel, stored
    little-endian (low byte first) as a `uint16_t` array is on the targets the
    library runs on. Red sits in the top five bits, green in the next six and
    blue in the bottom five. */
module Rgb565 {
  import opened Types

  const RED_MASK: bv16 := 0xF800
  const GREEN_MASK: bv16 := 0x07E0
  const BLUE_MASK: bv16 := 0x001F

  /** Largest value of each channel: the mask shifted down. */
  const RED_FULL_SCALE: nat := 31
  const GREEN_FULL_SCALE: nat := 63
  const BLUE_FULL_SCALE: nat := 31

  /** Red, green and blue extraction exactly as written: mask, then shift. */
  function Red(p: bv16): bv16 { (p & RED_MASK) >> 11 }
  function Green(p: bv16): bv16 { (p & GREEN_MASK) >> 5 }
  function Blue(p: bv16): bv16 { (p & BLUE_MASK) >> 0 }

  /** Each channel lies within its full-scale range. */
  lemma ChannelRanges(p: bv16)
    ensures Red(p) as nat <= RED_FULL_SCALE
    ensures Green(p) as nat <= GREEN_FULL_SCALE
    ensures Blue(p) as nat <= BLUE_FULL_SCALE
  {
    assert Red(p) <= 31 && Green(p) <= 63 && Blue(p) <= 31;
  }

  /** The three channels together lose nothing: shifting them back into place
      and or-ing them rebuilds the sample. */
  lemma ChannelsRebuildSample(p: bv16)
    ensures (Red(p) << 11) | (Green(p) << 5) | Blue(p) == p
  {
  }

  // ---------------------------------------------------------------------
  // Byte layout of a 16-bit sample

  function LowByte(p: bv16): bv8 { (p & 0xFF) as bv8 }
  function HighByte(p: bv16): bv8 { (p >> 8) as bv8 }

  function Join(lo: bv8, hi: bv8): bv16 { (lo as bv16) | ((hi as bv16) << 8) }

  /** Splitting a sample into bytes and joining them back is the identity,
      in both directions. */
  lemma JoinSplit(p: bv16, lo: bv8, hi: bv8)
    ensures Join(LowByte(p), HighByte(p)) == p
    ensures LowByte(Join(lo, hi)) == lo && HighByte(Join(lo, hi)) == hi
  {
  }

  /** Byte `k` (0 = low, 1 = high) of sample `p`. */
  function ByteOf(p: bv16, k: nat): bv8
    requires k < 2
  {
    if k == 0 then LowByte(p) else HighByte(p)
  }

  /** Sample `i` of a byte buffer. The C code never reads past a buffer; the
      model reads 0 there so that comparison strategies stay total functions. */
  function Sample(buf: seq<bv8>, i: nat): bv16 {
    if 2 * i + 1 < |buf| then Join(buf[2 * i], buf[2 * i + 1]) else 0
  }

  /** Whether sample `i` lies entirely inside the buffer. */
  predicate HasSample(buf: seq<bv8>, i: nat) {
    2 * i + 1 < |buf|
  }

  /** A buffer whose bytes `2i` and `2i+1` are those of `p` holds `p` as sample `i`. */
  lemma SampleOfBytes(buf: seq<bv8>, i: nat, p: bv16)
    requires 2 * i + 1 < |buf|
    requires buf[2 * i] == LowByte(p) && buf[2 * i + 1] == HighByte(p)
    ensures Sample(buf, i) == p
  {
    JoinSplit(p, 0, 0);
  }

  // ---------------------------------------------------------------------
  // Luminance

  /** Linear luminance in [0, 1] from the three channels normalised to their
      full scale, with the Rec. 709 weights the library uses. */
  function Luminance(p: bv16): (l: real)
    ensures 0.0 <= l <= 0.99902
  {
    ChannelRanges(p);
    var r := (Red(p) as int) as real / RED_FULL_SCALE as real;
    var g := (Green(p) as int) as real / GREEN_FULL_SCALE as real;
    var b := (Blue(p) as int) as real / BLUE_FULL_SCALE as real;
    0.2126 * r + 0.7152 * g + 0.07122 * b
  }

  /** Scaling a luminance to the 16-bit range and truncating toward zero, as
      the `(uint16_t)` cast of a non-negative value does. */
  function Quantize(l: real): (q: nat)
    requires 0.0 <= l <= 0.99902
    ensures q as real <= l * 65535.0 < q as real + 1.0
    ensures q <= 65470
  {
    var scaled := l * 65535.0;
    assert 0.0 <= scaled < 65471.0;
    var t := scaled.Floor;
    assert t as real <= scaled < t as real + 1.0;
    t
  }

  /** The intensity sample written back for colour sample `p`. */
  function Gray(p: bv16): (q: bv16)
  {
    Quantize(Luminance(p)) as bv16
  }

  /** White maps to the top of the intensity range actually reached, black to 0. */
  lemma GrayExtremes()
    ensures Gray(0) == 0
    ensures Gray(0xFFFF) == 65470
  {
    assert Red(0xFFFF) == 31 && Green(0xFFFF) == 63 && Blue(0xFFFF) == 31;
    assert Luminance(0xFFFF) == 0.99902;
    assert Quantize(0.99902) == 65470;
    assert Red(0) == 0 && Green(0) == 0 && Blue(0) == 0;
    assert Luminance(0) == 0.0;
  }

  /** Byte `k` of the intensity image of `buf`. */
  function GrayByte(buf: seq<bv8>, k: nat): bv8 {
    ByteOf(Gray(Sample(buf, k / 2)), k % 2)
  }

  /** In-place conversion of the first `pixelCount` samples of `buf` from
      colour to intensity; bytes past those samples are left alone. */
  function ConvertToGrayscale(buf: seq<bv8>, pixelCount: nat): (r: seq<bv8>)
    requires 2 * pixelCount <= |buf|
    ensures |r| == |buf|
    ensures forall i :: 0 <= i < pixelCount ==> Sample(r, i) == Gray(Sample(buf, i))
    ensures forall k :: 2 * pixelCount <= k < |buf| ==> r[k] == buf[k]
  {
    var r := seq(|buf|, k requires 0 <= k < |buf| => if k < 2 * pixelCount then GrayByte(buf, k) else buf[k]);
    forall i | 0 <= i < pixelCount
      ensures Sample(r, i) == Gray(Sample(buf, i))
    {
      assert r[2 * i] == GrayByte(buf, 2 * i);
      assert r[2 * i + 1] == GrayByte(buf, 2 * i + 1);
      assert (2 * i) / 2 == i && (2 * i) % 2 == 0;
      assert (2 * i + 1) / 2 == i && (2 * i + 1) % 2 == 1;
      SampleOfBytes(r, i, Gray(Sample(buf, i)));
    }
    r
  }
}

=== FILE: types.dfy ===
/** Fixed-width integer ranges, camera sides and small wrappers shared by the
    stereo pipeline model. The C library stores every count in an unsigned
    fixed-width field; these subset types carry the same ranges, and `Wrap32`
    is the reduction a `uint32_t` assignment performs. */
module Types {

  const TWO_POW_32: nat := 0x1_0000_0000

  type U8 = x: nat | x < 0x100
  type U16 = x: nat | x < 0x1_0000
  type U32 = x: nat | x < 0x1_0000_0000

  /** The value a `uint32_t` holds after being assigned `x`: `x` reduced
      mod 2^32, written as repeated subtraction so that the solver stays in
      linear arithmetic when `x` is a product of session fields. */
  function Wrap32(x: nat): (r: U32)
    ensures x < TWO_POW_32 ==> r == x
    decreases x
  {
    if x < TWO_POW_32 then x else Wrap32(x - TWO_POW_32)
  }

  /** Wrapping is reduction mod 2^32: it never increases a value and keeps
      it congruent mod 2^32. */
  lemma {:induction false} Wrap32Range(x: nat)
    ensures Wrap32(x) <= x
    ensures Wrap32(x) == x % TWO_POW_32
    decreases x
  {
    if x >= TWO_POW_32 {
      Wrap32Range(x - TWO_POW_32);
    }
  }

  /** Which camera of the rig a buffer or event belongs to. */
  datatype Side = Left | Right {
    function Other(): Side {
      if Left? then Right else Left
    }
  }

  /** One value per camera side. */
  datatype PerSide<T> = PerSide(left: T, right: T) {

    function Get(side: Side): T {
      if side.Left? then left else right
    }

    function Set(side: Side, v: T): (r: PerSide<T>)
      ensures r.Get(side) == v
      ensures r.Get(side.Other()) == Get(side.Other())
    {
      if side.Left? then PerSide(v, right) else PerSide(left, v)
    }
  }

  datatype Option<+T> = None | Some(value: T)
}
